=== FILE: README.md ===
# WimPatch patch engine, modelled in Dafny

WimPatch builds and applies differential patches for Windows image (WIM)
files. A patch file is itself a WIM file. Each of its images holds:

- the files a patch adds;
- the payloads of the files it modifies;
- a `PatchManifest` in the image's XML description. The manifest records the
  base and target image statistics and an ordered list of Add, Delete and
  Modify operations.

This project models the part of the engine that decides what goes into a
patch and what happens when one is replayed:

- **`DirCompare`** (`dircompare.dfy`): `is_same_file`, `build_file_map` and
  `compare_directories` from `utils.rs`.
  - The two mounted trees are finite maps from relative path to entry.
  - The hash order in which the comparator walks its maps is an explicit
    input. Every property holds for every such order.
- **`PatchOps`** (`patchops.dfy`):
  - `create_operations`: records an operation per event and stages payloads
    in the patch directory;
  - `apply_operations`: replays the operations on the mounted base image,
    including the `force` rules and the exclusion filter;
  - the `Storage`/`Preset` settings and the zstd levels.
- **`PatchChain`** (`patchchain.dfy`): `match_patch`, which builds patch
  chains. From each base image it repeatedly picks the lowest-versioned
  eligible patch (stable for ties). Without `force`, it checks that the
  image statistics agree.
- **`PatchCommands`** (`patchcommands.dfy`), the selection logic around the
  commands:
  - the image pairs `create_patch` diffs;
  - which chains `apply_patch` replays on which image;
  - the operation counts of the patch listing;
  - the image list `merge_patches` exports, and its compression flag.
- **`XmlText`** (`xmltext.dfy`):
  - `replace_xml_field`;
  - inserting the display fields and the manifest before the last `</IMAGE>`;
  - extracting the `<PatchManifest>` span in `parse_patch_info`.
- **`RoundTrip`** (`roundtrip.dfy`): what happens to one modified file
  between create and apply. This covers the two defects listed under
  Findings.
- **`Manifest`**, **`SemVer`**, **`Fs`**, **`Text`** and **`Wrappers`**:
  - the manifest records and `PatchManifest::new`;
  - the `MAJOR.MINOR.PATCH` versions the chain matcher sorts by;
  - the few `std::fs` calls, as functions on a path map;
  - the string searches (`find`, `rfind`, ASCII lower-casing).

The following are parameters rather than modelled behaviour:

- **Codecs:** the zstd and bsdiff codecs are uninterpreted functions in a
  `Codecs` record. No lemma assumes that decoding undoes encoding. The
  round-trip lemmas state what reaches the decoder, and what the file holds
  when the codec does round-trip.
- **Values the code draws at run time:** the clock, the UUID and the crate
  version are inputs.
- **The manifest deserializer** is a function parameter.

## Behaviour of the program worth knowing

- **Walk order:** the comparator walks its two hash maps in hash order. The
  order of events within a kind is unspecified.
- **Deletes first:** every Delete is reported before any Add or Modify.
- **Kind changes:** a path that is a file on one side and a directory on the
  other produces no event at all.
- **Content changes only:** a file is reported as modified only when the
  identity test fails. There is no record for a change of attributes alone.
- **Staging errors:** errors while staging payloads into the patch
  directory are printed and ignored. They do not abort the comparison.
- **Exclusion:** an exclude item matches any path that contains it as a
  substring, ignoring ASCII case.
- **Merge:** `merge_patches` exports every image of every input into one
  file, in order. It does not compose or recompute deltas.
- **Apply:** `apply_patch` replays each chain on the image whose index is the
  chain's FINAL target index.
- **Manifest span order:** when the first manifest end tag comes before the
  first start tag, `parse_patch_info` slices out of order and the Rust slice
  panics. The model returns the error `SliceOutOfOrder` instead.

## Model

| member | source | states |
|---|---|---|
| Manifest.NewManifest | src/manifest.rs:157-193 | the manifest carries exactly the given name, description, author, version, both GUIDs and image statistics and the operations in order, plus the supplied id, time stamp and tool version |
| SemVer.ParseNumber | src/patch.rs:1674-1679 | a version field parses exactly when it is a numeral without a leading zero whose value fits in 64 bits, and the parsed value prints back as the same text |
| SemVer.ParseOrZero | src/patch.rs:1676-1677 | a version that does not parse sorts as 0.0.0; otherwise it is the parsed version |
| SemVer.ParseRender | src/patch.rs:1676-1677 | a rendered version parses back to itself |
| SemVer.Parse | src/patch.rs:1676-1677 | a text parses only when it is the rendering of the version it parses to: three numerals without leading zeros joined by dots, so parsing is injective on the texts it accepts |
| SemVer.Less | src/patch.rs:1674-1679 | the version order the sort uses never relates a version to itself, never puts a higher major version first, and always puts a lower major version first |
| SemVer.LessTotal | src/patch.rs:1674-1679 | the version order used by the sort is total and asymmetric |
| SemVer.LessTransitive | src/patch.rs:1674-1679 | the version order is transitive |
| Text.Find | src/utils.rs:358-360 | `find` returns the first position at which the pattern occurs, and None exactly when it occurs nowhere |
| Text.RFind | src/patch.rs:719 | `rfind` returns the last position at which the pattern occurs, and None exactly when it occurs nowhere |
| XmlText.FieldSpan | src/utils.rs:358-364 | the replaced span starts right after the first start tag and ends at the first end tag after it; there is none exactly when no end tag follows a start tag |
| XmlText.ReplaceXmlField | src/utils.rs:354-374 | without a field the XML is returned unchanged; otherwise the length changes by the new value's length minus the old text's |
| XmlText.ReplaceKeepsRest | src/utils.rs:363-370 | everything up to the start tag and from the end tag on is kept, and the value sits between them |
| XmlText.ReadXmlField | src/utils.rs:358-364 | the current text of the first element, which is exactly what a replacement overwrites; the element occurs in full in the XML |
| XmlText.ReplaceSpan | src/utils.rs:354-374 | after a replacement whose value holds no end tag, the field spans exactly the new value |
| XmlText.ReplaceThenRead | src/utils.rs:354-374 | after a replacement the field reads back as the new value |
| XmlText.ReplaceSame | src/utils.rs:354-374 | writing the text a field already holds changes nothing |
| XmlText.ReplaceIdempotent | src/utils.rs:354-374 | replacing the same field with the same value twice equals doing it once |
| XmlText.ReplaceContainsElement | src/test.rs:376-396 | the repository's XML test: after a replacement the whole element `<NAME>value</NAME>` occurs in the result |
| XmlText.InsertImageFields | src/patch.rs:715-733 | fails exactly when the description has no `</IMAGE>`; otherwise the text before the last `</IMAGE>` is kept, then come the five display fields and the manifest, then the rest |
| XmlText.ManifestSpan | src/patch.rs:61-62 | not-found exactly when either manifest tag is missing; a success is the slice from the first start tag to the end of the first end tag, and, when the start tag comes first, it begins with the start tag, ends with the end tag and holds no earlier end tag |
| XmlText.ParsePatchInfo | src/patch.rs:59-70 | a span error is returned as is; a span the deserializer rejects is a parse error; success is the deserialized span |
| XmlText.InsertThenSpan | src/patch.rs:719-733 | a manifest written into a patch image is the span read back from it, when the image XML holds no manifest tag, the manifest is one element, and the user-supplied name and description contain no `<` (they are inserted unescaped) |
| XmlText.InsertThenParse | src/patch.rs:59-70 | reading a written patch image yields what the deserializer makes of the written manifest, under the same conditions: no manifest tag in the image XML, one manifest element, and a name and description without `<` |
| Fs.CreateDirs | src/patch.rs:1247-1259 | `create_dir_all` succeeds exactly when none of the directories is an existing file; it then adds them and changes nothing else |
| Fs.RemoveAll | src/patch.rs:1447-1480 | removal deletes the path and everything below it, and nothing else |
| Fs.Copy | src/patch.rs:1419 | a copy succeeds exactly when the source is a readable file and the destination can be created; the destination then holds the source entry |
| Fs.WriteFile | src/bsdiff.rs:54 | a write succeeds exactly when the file can be created; it then holds the data, and other paths are unchanged |
| DirCompare.IsSameFile | src/utils.rs:195-222 | files that disagree in size or time stamp, when both are known, are different; otherwise they are the same exactly when both open and hold the same bytes |
| DirCompare.IsSameFileSymmetric | src/utils.rs:195-222 | the identity test does not depend on argument order |
| DirCompare.IsSameFileReflexive | src/utils.rs:195-222 | a file is the same as itself exactly when it can be opened |
| DirCompare.IsSameFileNotTransitive | src/utils.rs:195-202 | the test is not transitive: a file whose time stamp cannot be read is "the same" as two files with equal bytes and different time stamps, which are not the same as each other |
| DirCompare.BuildFileMap | src/utils.rs:322-343 | the keys added are exactly the relative paths of all descendants, files and directories, at every depth; each holds the entry of a node listed under that path; every key already present and not listed keeps its entry |
| DirCompare.FileMap | src/utils.rs:280-288 | a directory's map has one key per descendant at every depth and no other, each holding the entry of a node listed under it |
| DirCompare.DeleteEvents | src/utils.rs:286-294 | each Delete is about a base path the target lacks and carries the base entry and no target |
| DirCompare.DeleteEventsPaths | src/utils.rs:286-294 | the Delete events name exactly the base paths the target lacks |
| DirCompare.AddModifyEvents | src/utils.rs:297-312 | each Add is about a path the base lacks; each Modify is about a path that is a file on both sides and fails the identity test; both carry the entries of their sides |
| DirCompare.AddEventsPaths | src/utils.rs:297-303 | the Add events name exactly the target paths the base lacks |
| DirCompare.ModifyEventsPaths | src/utils.rs:304-311 | the Modify events name exactly the paths that are files on both sides and differ |
| DirCompare.Events | src/utils.rs:285-312 | for every hash order, one event per changed path: Deletes exactly for base-only paths, Adds for target-only paths, Modifies for differing files; events carry their entries, no path twice, all Deletes first |
| DirCompare.EventsProperties | src/utils.rs:285-312 | the same facts about the two loops' concatenated events |
| DirCompare.Feed | src/utils.rs:288-311 | the callback sees a prefix of the events; the run passes exactly when it accepted all of them, and is interrupted right after the first refusal |
| DirCompare.CompareDirectories | src/utils.rs:257-315 | a missing root or a root that is not a directory is the matching error, with no callback; two directories feed the events of their file maps to the callback |
| PatchChain.PickFrom | src/patch.rs:1657-1682 | the scan finds nothing exactly when no patch is eligible; otherwise it finds the first patch with the lowest version among the eligible ones |
| PatchChain.Pick | src/patch.rs:1657-1682 | the selection step: None exactly when no patch is eligible (same base GUID, same base index, unused); otherwise the first lowest-versioned eligible patch |
| PatchChain.PickUnique | src/patch.rs:1674-1682 | the sort-and-take-first has exactly one answer |
| PatchChain.GrowChain | src/patch.rs:1655-1705 | a grown chain only adds used indices; it fails only without force |
| PatchChain.GrowChainSound | src/patch.rs:1655-1705 | every link is the pick of its step; the chain stops only when nothing is eligible; without force every link's recorded base statistics equal the image it is applied to |
| PatchChain.LinkAt | src/patch.rs:1681-1709 | the k-th link is the pick from the image the previous link produced, with all earlier links' indices used |
| PatchChain.LinksEnd | src/patch.rs:1701-1711 | a chain ends at its last link's target image, having used the starting indices plus its own |
| PatchChain.LinksIndexed | src/patch.rs:1655-1711 | the two facts above for every link of a chain |
| PatchChain.ChainIndicesFresh | src/patch.rs:1663 | no patch index repeats within a chain, and none was used by an earlier chain |
| PatchChain.GrowChainForce | src/patch.rs:1685-1698 | with force a chain always grows; a checked success is the forced chain |
| PatchChain.FirstMismatchChecked | src/patch.rs:1685-1698 | a chain has no mismatching link exactly when every link's base statistics match |
| PatchChain.GrowChainChecked | src/patch.rs:1685-1698 | without force the matcher is the forced matcher followed by the statistics check, failing with the current image index at the first mismatching link |
| PatchChain.MatchFrom | src/patch.rs:1650-1713 | only non-empty chains are returned; a failure happens only without force |
| PatchChain.MatchFromFresh | src/patch.rs:1650-1713 | every chained patch comes from the list, carries the input GUID and was not used before, and no index is chained twice |
| PatchChain.GrowChainFresh | src/patch.rs:1655-1709 | a chain's links come from the list, are fresh and distinct, and carry the input GUID |
| PatchChain.Keys | src/patch.rs:1674-1679 | the sort key of each patch is its parsed version, or 0.0.0 when the version does not parse |
| PatchChain.MatchPatch | src/patch.rs:1636-1714 | the result holds non-empty chains of list patches with the input GUID, and no patch index appears twice across all chains; it fails only without force |
| PatchChain.GrowChainConnected | src/patch.rs:1655-1705 | a grown chain starts at the index of the image it grew from, each link starts at the image index the previous one produced, and it ends at its last link's target; without force the statistics chain exactly |
| PatchChain.MatchFromConnected | src/patch.rs:1650-1711 | every match of the outer loop is connected and starts at the index of one of the base images it ran over |
| PatchChain.MatchPatchConnected | src/patch.rs:1636-1714 | each returned chain starts at the index of a base image, each link starts at the image index the previous link produced, and the final statistics returned with it are its last link's target statistics; without force each link's base statistics equal the previous target's, from a base image on |
| PatchChain.MatchFromForce | src/patch.rs:1685-1698 | the forced outer loop never fails, and a checked success equals it |
| PatchChain.MatchPatchForce | src/patch.rs:1685-1698 | `force` never changes a successful match; it only turns the base-statistics error into a warning |
| PatchChain.LinksOf | src/patch.rs:1707 | a chain lists the patches at its positions, in order |
| PatchCommands.PairIndices | src/patch.rs:309-376 | with both indices, the one pair is rejected exactly when either index exceeds its count, and the error names the base index; otherwise all pairs lie within both counts |
| PatchCommands.PairIndicesDefault | src/patch.rs:345-346 | without both indices, every index from 1 to the smaller count is paired with itself, once and in ascending order |
| PatchCommands.PairIndicesZero | src/patch.rs:312 | index 0 passes the range check, which tests only the upper bounds |
| PatchCommands.JobsAt | src/patch.rs:868-885 | with a requested index b, each job replays on b a chain whose final target index is b, and every such chain becomes a job |
| PatchCommands.JobsAll | src/patch.rs:886-906 | without a requested index, each match becomes one job on its final target index, in order |
| PatchCommands.PlanApply | src/patch.rs:854-907 | a match error propagates; an empty match is an error exactly when the matcher found nothing; an unknown requested index is an error naming it; every job's chain is non-empty |
| PatchCommands.PlanApplyForce | src/patch.rs:854-907 | under force the only errors left are an empty match and an unknown base index |
| PatchCommands.SelectsByFinalIndex | src/patch.rs:868-870 | a chain is replayed on requested image b exactly when it ENDS at index b; a chain that starts at b and moves elsewhere is not |
| PatchCommands.AppliesAllMatches | src/patch.rs:886-906 | without a requested index every match is replayed, in order, on the image its chain ends at |
| PatchCommands.DifferentChains | src/patch.rs:1663 | two different matches never share a chain |
| PatchCommands.Count | src/patch.rs:150-164 | a count is at most the number of operations; it is zero exactly when no operation has the action, and full exactly when all do |
| PatchCommands.CountAppend | src/patch.rs:150-164 | counting distributes over concatenation |
| PatchCommands.CountsSum | src/patch.rs:150-166 | the shown total, Add + Modify + Delete, is the number of operations |
| PatchCommands.Merge | src/patch.rs:1748-1780 | the merged file has as many images as all inputs together, each taken from an input |
| PatchCommands.MergeAt | src/patch.rs:1748-1780 | image j of input i lands right after all images of the earlier inputs |
| PatchCommands.MergeAppend | src/patch.rs:1748-1780 | merging two groups of inputs is merging each group and appending |
| PatchCommands.CompressFlag | src/patch.rs:1734-1738 | the output compression flag is at most 2, and 0 exactly for no compression |
| PatchCommands.CompressOfFlag | src/wimgapi.rs:57-59 | a flag names a compression choice exactly when it is one of the three WIM values |
| PatchCommands.CompressFlagRoundTrip | src/patch.rs:1734-1738 | each choice gets its own flag, and a flag gives its choice back |
| PatchCommands.ListPatches | src/patch.rs:795-810 | image k of a patch file, counted from 1, carries the k-th manifest; indices are strictly ascending and within the image count |
| PatchOps.LevelsOrdered | src/patch.rs:1311-1316 | every preset is a valid zstd level, slower presets use higher levels, and Extreme is 22 |
| PatchOps.StorageOfTag | src/patch.rs:1496-1498 | a tag names a storage exactly when it lower-cases to "full", "zstd" or "bsdiff" |
| PatchOps.TagRoundTrip | src/patch.rs:1290-1294 | the tag create writes is read back as the same storage, and a tag reads as a storage exactly when it lower-cases to that storage's tag |
| PatchOps.Excluded | src/patch.rs:1209-1214 | without exclude items nothing is excluded; an empty item excludes every path |
| PatchOps.ExcludedExtends | src/patch.rs:1362-1369 | the test matches substrings, so every path extending an excluded path is excluded: excluding a directory excludes everything below it |
| PatchOps.OperationOf | src/patch.rs:1232-1296 | the recorded operation keeps the event's path and kind; nothing is recorded only for an Add without a target entry or a Modify missing an entry; a Delete has no size or storage; an Add and a Modify record the size of the target entry, a Modify also the storage tag |
| PatchOps.Operations | src/patch.rs:1207-1339 | the recorded list never holds an excluded path, and each action carries the fields its kind requires |
| PatchOps.OperationsPaths | src/patch.rs:1207-1296 | the operations of one action are about exactly the non-excluded paths of the events of that kind |
| PatchOps.OperationsDeletesFirst | src/patch.rs:1207-1339 | leaving out excluded events keeps all Deletes in front |
| PatchOps.WriteDiff | src/zstdiff.rs:59-89 | a diff file is either not written at all or holds the encoder's bytes; no other path changes |
| PatchOps.StageOne | src/patch.rs:1232-1332 | a Delete stages nothing; staging never removes anything from the patch directory; an added readable file is copied to its path in the patch directory, and an added directory is created there, whenever no directory above the path is a file and the path's own kind does not clash |
| PatchOps.Stage | src/patch.rs:1207-1332 | staging a run of events never removes anything from the patch directory |
| PatchOps.CreateOperations | src/patch.rs:1186-1340 | succeeds exactly when both mounts are directories; records no excluded path; removes nothing from the patch directory |
| PatchOps.EventsComplete | src/utils.rs:285-312 | every Add event carries its target entry and every Modify both entries |
| PatchOps.CreatePaths | src/patch.rs:1186-1340 | the manifest has a Delete for exactly the base-only paths, an Add for exactly the target-only paths, and a Modify for exactly the changed files, excluded paths left out, all Deletes first |
| PatchOps.ZstdPatchFile | src/zstdiff.rs:101-131 | success means the file is rewritten with the decoder's output; a decoding error is reported for the path and may leave partial output |
| PatchOps.BsPatchFile | src/bsdiff.rs:44-56 | success means the file is rewritten with the patched bytes; a failure leaves the tree unchanged |
| PatchOps.ApplyAdd | src/patch.rs:1383-1437 | a successful Add leaves the patch's entry at the path; a missing source is reported only when the patch has nothing there |
| PatchOps.ApplyDelete | src/patch.rs:1439-1482 | a Delete always passes; a missing path changes nothing; otherwise the path and everything below it go, and nothing else changes |
| PatchOps.ApplyModify | src/patch.rs:1484-1618 | a Modify without a storage tag, or with an unknown one, does nothing; a missing diff is reported only when the patch lacks the looked-up name |
| PatchOps.ApplyOne | src/patch.rs:1360-1620 | an excluded path is skipped unchanged; deleting a missing path and a Modify without a known tag change nothing; a failure names the operation's path |
| PatchOps.ApplyOneFrame | src/patch.rs:1383-1618 | an operation touches only its own path, the directories above it and, for a Delete, what lies below it |
| PatchOps.ApplyOperations | src/patch.rs:1343-1622 | under force the only failure that can stop the replay is a directory creation error |
| PatchOps.ApplyAppend | src/patch.rs:1360-1620 | replaying two lists is replaying the first and then, unless it stopped, the second on its result |
| PatchOps.FailureStops | src/patch.rs:1360-1620 | without force a failed replay is the failure of one operation, applied to the tree all earlier operations produced successfully |
| PatchOps.ForceSkips | src/patch.rs:1360-1620 | under force a skippable failure keeps what it left behind, and the replay continues with the next operation |
| RoundTrip.ModifyOperation | src/patch.rs:1286-1295 | a modified file is recorded with the new file's size and the storage tag, which reads back as the same storage |
| RoundTrip.FullStagesOld | src/patch.rs:1299-1304 | as written, Full storage replays the OLD file onto the path |
| RoundTrip.AddFileRoundTrip | src/patch.rs:1256-1258 | an added file staged at create and replayed at apply ends up at its path with exactly the new file's entry, for every storage, and the replay passes |
| RoundTrip.AddDirRoundTrip | src/patch.rs:1243-1248 | an added directory is created in the patch directory at create and in the base image at apply |
| RoundTrip.FullStagesNew | src/patch.rs:1299-1304 | with the new file staged, Full storage replays the new file onto the path |
| RoundTrip.DiffNameMismatch | src/patch.rs:1521-1524 | as written, a zstd or bsdiff Modify fails with a missing diff and leaves the tree unchanged, because apply looks for "{path}.diff " |
| RoundTrip.ZstdPayloadReaches | src/patch.rs:1305-1320 | with the create suffix, the zstd decoder receives exactly the bytes the encoder produced; when that round-trips, the file holds the new data |
| RoundTrip.BsdiffPayloadReaches | src/patch.rs:1321-1328 | the same for bsdiff; a failed decode leaves the file as it was |

## Left out

- **wimgapi:** mounting, committing, exporting and unmounting images, image
  counts and handles are foreign calls. Image lists and descriptions are
  inputs. `apply_patch_image`, which replays a chain image by image and
  commits, is not modelled beyond `ApplyOperations` for one manifest.
- **Codec internals:** zstd and bsdiff are uninterpreted functions.
  Decode-after-encode is a hypothesis of the round-trip lemmas, not a fact.
- **XML (de)serialization:** quick_xml serialization and deserialization of
  the manifest and of `ImageInfo` are left out. The deserializer is a
  parameter of `ParsePatchInfo`.
- **Run-time values:** the UUID, the RFC 3339 time stamp and the crate
  version of `PatchManifest::new` are inputs. One clock reading stamps
  every file written in a run.
- **Presentation and environment:** progress bars, console output,
  translation, `format_bytes`, `get_tmp_name`, the process inspection and
  SHA-256 in `utils.rs`, `interactive.rs`, `build.rs` and `cli.rs`/`main.rs`
  (except the Storage, Preset and Compress choices).
- **Exclude list:** `exclude: None` is modelled as the empty list; both
  exclude nothing.
- **Delete failures:** a failing `remove_file` or `remove_dir_all` is not
  modelled. A Delete in the model always succeeds.
- **Path forms:** manifest paths are relative and non-empty. An empty path,
  or an absolute path that `Path::join` would treat as replacing the mount
  root, is not modelled.
- **Partial reads:** `is_same_file` reads in chunks. A read error part-way
  through, which returns false, is folded into the file's `readable` flag.
- **Time stamps:** the nanosecond time stamp of `get_file_metadata` is a
  64-bit value supplied with the file. Its truncating cast is not modelled.
- **Versions:** pre-release and build metadata are not parsed; such versions
  sort as 0.0.0 here, like any text the model does not parse.
- PatchOps.StorageOfTag: lower-cases ASCII only, where the source uses
  Unicode `to_lowercase`. For the three tag names both agree, because no
  non-ASCII character lower-cases into one of their letters.
- XmlText.ReplaceContainsElement: states the element's presence right after
  its own replacement. It does not state that later replacements of other
  fields, as in the repository's test, keep it.
- XmlText.ManifestSpan: returns `SliceOutOfOrder` where the Rust slice would
  panic, when the first manifest end tag precedes the first start tag.
- PatchCommands.ListPatches: requires fewer than 2^32 images, the range of
  the `u32` image count.
- DirCompare.CompareDirectories: the read errors of `build_file_map` are not
  modelled. A root that exists and is a directory always lists.
- PatchOps.OperationOf: `metadata().unwrap()` on the new file panics when
  its metadata cannot be read (src/patch.rs:1237, 1289). The model's files
  always have a size, so this panic is not represented.
- PatchCommands.PlanApply: copying the base image to the temporary
  directory (src/patch.rs:859-860) can fail after the empty-match check and
  before the base-index check. That error is not modelled.
- XmlText.InsertThenSpan: the name and description are inserted into the
  image XML unescaped, ahead of the manifest. A description containing
  `</PatchManifest>` puts the first end tag before the manifest's start
  tag. A later read then slices out of order, which panics in the source
  and is `SliceOutOfOrder` here. A description holding a whole manifest
  element is read instead of the real one. The lemma and
  XmlText.InsertThenParse require both texts to be free of `<`, and what a
  read returns otherwise is not stated.
- **Path matching:** a `Tree` matches file names exactly. Win32 path
  resolution matches names case-insensitively and trims trailing spaces and
  dots from the last component. Under that matching the `"{}.diff "` lookup
  of src/patch.rs:1523 and 1569 would likely find the `"{}.diff"` file, and
  RoundTrip.DiffNameMismatch would not occur. Case-insensitive collisions
  between paths are not modelled either.
- DirCompare.BuildFileMap: when two listed children share a path, which a
  real directory never holds, the contract says only that the key holds the
  entry of one of them. The source keeps the later one.

## Findings

| source | as written | input that shows it | evidently intended | confidence | as-written member | corrected member |
|---|---|---|---|---|---|---|
| src/patch.rs:1301 | Full storage copies `old_path` into the patch directory | any file modified between base and target, created with `--storage full` | copy `new_path`, so that apply's copy installs the new content | high; not executed | RoundTrip.FullStagesOld | RoundTrip.FullStagesNew |
| src/patch.rs:1523 | with names matched exactly, apply looks zstd and bsdiff payloads up as `"{}.diff "` (trailing space), while create writes `"{}.diff"` (lines 1310, 1324); the same at 1569 | any file modified between base and target, created with `--storage zstd` or `--storage bsdiff` | apply uses the name create writes | medium; not executed; Win32 path normalisation drops a trailing space from the last path component, which may hide this on Windows | RoundTrip.DiffNameMismatch | RoundTrip.ZstdPayloadReaches |

=== FILE: dircompare.dfy ===
/** The tree comparator of `utils.rs`: the file-identity test, the walk that
    lists a mounted directory as a map from relative path to entry, and the
    comparison that reports Delete, Add and Modify events to a callback.

    The comparator keeps both listings in hash maps and visits them in hash
    order, which no caller can predict. The model makes that order an input:
    `baseOrder` and `targetOrder` list each map's keys once, in the order the
    maps happen to yield them, and every property below holds for every such
    order. */
module DirCompare {
  import opened Wrappers
  import opened Fs

  /** The size and time stamp agree, or one of them cannot be read. Only
      then does `is_same_file` go on to compare bytes. */
  predicate MetadataAgrees(a: FileInfo, b: FileInfo) {
    !(a.mtime.Some? && b.mtime.Some? && (a.size != b.size || a.mtime != b.mtime))
  }

  /** `is_same_file`: a size and time stamp pre-filter, then a byte by byte
      comparison of two files that can both be opened. */
  function IsSameFile(a: FileInfo, b: FileInfo): (r: bool)
    ensures r ==> a.readable && b.readable && a.data == b.data
    ensures !MetadataAgrees(a, b) ==> !r
    ensures MetadataAgrees(a, b) ==> (r <==> a.readable && b.readable && a.data == b.data)
  {
    if a.mtime.Some? && b.mtime.Some? && (a.size != b.size || a.mtime != b.mtime) then false
    else a.readable && b.readable && a.data == b.data
  }

  /** The identity test does not depend on which side is the base. */
  lemma IsSameFileSymmetric(a: FileInfo, b: FileInfo)
    ensures IsSameFile(a, b) == IsSameFile(b, a)
  {
  }

  /** A file is the same as itself exactly when it can be opened. */
  lemma IsSameFileReflexive(a: FileInfo)
    ensures IsSameFile(a, a) <==> a.readable
  {
  }

  /** The identity test is not transitive: a file whose time stamp cannot
      be read passes the pre-filter against both of two files whose time
      stamps differ, so with equal bytes it is "the same" as each of them
      while they are not the same as each other. */
  lemma IsSameFileNotTransitive()
    ensures var a, b, c := FileInfo(0, Some(1), [], true), FileInfo(0, None, [], true), FileInfo(0, Some(2), [], true);
      IsSameFile(a, b) && IsSameFile(b, c) && !IsSameFile(a, c)
  {
  }

  // ---------------------------------------------------------------------
  // Directory listing

  /** A directory as `read_dir` lists it, recursively. */
  datatype Node = FileNode(info: FileInfo) | DirNode(children: seq<Child>)
  datatype Child = Child(name: string, node: Node)

  /** What sits at a mount point: nothing, or a file or directory. */
  datatype Root = Missing | Present(node: Node)

  function EntryOf(n: Node): Entry {
    match n
    case FileNode(info) => File(info)
    case DirNode(_) => Dir
  }

  /** Every (relative path, entry) pair a listing holds, at every depth: a
      child under `prefix` + its name, then, for a directory, the pairs of
      its own children under that path and a separator. */
  function Listed(prefix: Path, children: seq<Child>): set<(Path, Entry)>
    decreases children
  {
    if |children| == 0 then {}
    else
      var c := children[0];
      var rel := prefix + c.name;
      {(rel, EntryOf(c.node))}
      + (if c.node.DirNode? then Listed(rel + [Sep], c.node.children) else {})
      + Listed(prefix, children[1..])
  }

  /** The relative paths of a listing, at every depth. */
  function ListedPaths(prefix: Path, children: seq<Child>): set<Path>
    decreases children
  {
    if |children| == 0 then {}
    else
      var c := children[0];
      var rel := prefix + c.name;
      {rel}
      + (if c.node.DirNode? then ListedPaths(rel + [Sep], c.node.children) else {})
      + ListedPaths(prefix, children[1..])
  }

  /** `build_file_map`: inserts every child under `prefix` + its name, then
      the contents of each child directory, into `acc`. A later insertion
      of the same key replaces an earlier one, as `HashMap::insert` does.
      The keys added are exactly the relative paths of all descendants,
      files and directories alike; each holds the entry of a node listed
      under that path; every other key keeps its entry. */
  function BuildFileMap(prefix: Path, children: seq<Child>, acc: Tree): (r: Tree)
    ensures r.Keys == acc.Keys + ListedPaths(prefix, children)
    ensures forall p :: p in acc && p !in ListedPaths(prefix, children) ==> r[p] == acc[p]
    ensures forall p :: p in ListedPaths(prefix, children) ==> (p, r[p]) in Listed(prefix, children)
    decreases children
  {
    if |children| == 0 then acc
    else
      var c := children[0];
      var rel := prefix + c.name;
      var acc1 := acc[rel := EntryOf(c.node)];
      var acc2 := if c.node.DirNode? then BuildFileMap(rel + [Sep], c.node.children, acc1) else acc1;
      BuildFileMap(prefix, children[1..], acc2)
  }

  /** The relative-path map of a mounted directory: one key per
      descendant, holding the entry of a node listed under it. */
  function FileMap(children: seq<Child>): (r: Tree)
    ensures r.Keys == ListedPaths("", children)
    ensures forall p :: p in r ==> (p, r[p]) in Listed("", children)
  {
    BuildFileMap("", children, map[])
  }

  // ---------------------------------------------------------------------
  // Events

  datatype DiffType = Add | Delete | Modify

  /** One callback invocation: the kind of change, what the path holds in
      the base and in the target, and the relative path. */
  datatype DiffEvent = DiffEvent(kind: DiffType, base: Option<Entry>, target: Option<Entry>, path: Path)

  datatype CompareError =
    | BaseMissing | TargetMissing | BaseNotDirectory | TargetNotDirectory | Interrupted

  /** The callbacks made, in order, and what `compare_directories` returned. */
  datatype CompareRun = CompareRun(calls: seq<DiffEvent>, result: Outcome<CompareError>)

  /** `order` lists the keys of `t`, each exactly once. */
  ghost predicate Enumerates(order: seq<Path>, t: Tree) {
    && (forall i, j :: 0 <= i < j < |order| ==> order[i] != order[j])
    && (forall p :: p in t <==> p in order)
  }

  /** The paths that the events of one kind are about. */
  function PathsOf(events: seq<DiffEvent>, kind: DiffType): set<Path> {
    if |events| == 0 then {}
    else (if events[0].kind == kind then {events[0].path} else {}) + PathsOf(events[1..], kind)
  }

  lemma {:induction false} PathsOfConcat(a: seq<DiffEvent>, b: seq<DiffEvent>, kind: DiffType)
    ensures PathsOf(a + b, kind) == PathsOf(a, kind) + PathsOf(b, kind)
  {
    if |a| > 0 {
      assert (a + b)[1..] == a[1..] + b;
      PathsOfConcat(a[1..], b, kind);
    } else {
      assert a + b == b;
    }
  }

  /** A path belongs to `PathsOf` exactly when some event of that kind is
      about it. */
  lemma {:induction false} PathsOfMember(events: seq<DiffEvent>, kind: DiffType, p: Path)
    ensures p in PathsOf(events, kind) <==>
            exists i :: 0 <= i < |events| && events[i].kind == kind && events[i].path == p
  {
    if |events| > 0 {
      PathsOfMember(events[1..], kind, p);
      if p in PathsOf(events[1..], kind) {
        var i :| 0 <= i < |events[1..]| && events[1..][i].kind == kind && events[1..][i].path == p;
        assert events[i + 1] == events[1..][i];
      }
      if exists i :: 0 <= i < |events| && events[i].kind == kind && events[i].path == p {
        var i :| 0 <= i < |events| && events[i].kind == kind && events[i].path == p;
        if i > 0 { assert events[1..][i - 1] == events[i]; }
      }
    }
  }

  /** Paths that are files on both sides and fail the identity test. */
  function ModifiedPaths(base: Tree, target: Tree): set<Path> {
    set p | p in base && p in target && base[p].File? && target[p].File?
                && !IsSameFile(base[p].info, target[p].info)
  }

  /** No path is reported twice. */
  ghost predicate DistinctPaths(events: seq<DiffEvent>) {
    forall i, j :: 0 <= i < j < |events| ==> events[i].path != events[j].path
  }

  /** Each event carries the entries found at its path on either side. */
  ghost predicate EventsFaithful(events: seq<DiffEvent>, base: Tree, target: Tree) {
    forall i :: 0 <= i < |events| ==>
      var e := events[i];
      && (e.base.Some? <==> e.path in base)
      && (e.base.Some? ==> e.base.value == base[e.path])
      && (e.target.Some? <==> e.path in target)
      && (e.target.Some? ==> e.target.value == target[e.path])
  }

  /** The first loop of `compare_directories`: a Delete for each base path
      the target lacks, in the order the base map is visited. */
  function DeleteEvents(order: seq<Path>, base: Tree, target: Tree): (r: seq<DiffEvent>)
    requires forall p :: p in order ==> p in base
    ensures forall i :: 0 <= i < |r| ==>
      && r[i].kind == Delete && r[i].path in order && r[i].path !in target
      && r[i].base == Some(base[r[i].path]) && r[i].target == None
  {
    if |order| == 0 then []
    else
      var p := order[0];
      var here := if p !in target then [DiffEvent(Delete, Some(base[p]), None, p)] else [];
      here + DeleteEvents(order[1..], base, target)
  }

  lemma {:induction false} DeleteEventsPaths(order: seq<Path>, base: Tree, target: Tree)
    requires forall p :: p in order ==> p in base
    ensures PathsOf(DeleteEvents(order, base, target), Delete) == set p | p in order && p !in target
  {
    if |order| > 0 {
      var p := order[0];
      var here := if p !in target then [DiffEvent(Delete, Some(base[p]), None, p)] else [];
      DeleteEventsPaths(order[1..], base, target);
      PathsOfConcat(here, DeleteEvents(order[1..], base, target), Delete);
      assert forall q :: q in order <==> q == p || q in order[1..];
    }
  }

  lemma {:induction false} DeleteEventsDistinct(order: seq<Path>, base: Tree, target: Tree)
    requires forall p :: p in order ==> p in base
    requires forall i, j :: 0 <= i < j < |order| ==> order[i] != order[j]
    ensures DistinctPaths(DeleteEvents(order, base, target))
  {
    if |order| > 0 {
      DeleteEventsDistinct(order[1..], base, target);
      var rest := DeleteEvents(order[1..], base, target);
      assert forall i :: 0 <= i < |rest| ==> rest[i].path != order[0] by {
        forall i | 0 <= i < |rest| ensures rest[i].path != order[0] {
          var k :| 0 <= k < |order[1..]| && order[1..][k] == rest[i].path;
          assert order[k + 1] == rest[i].path;
        }
      }
    }
  }

  /** The second loop: an Add for each target path the base lacks and a
      Modify for each path that is a file on both sides and fails the
      identity test; directories on both sides and a change between file
      and directory report nothing. */
  function AddModifyEvents(order: seq<Path>, base: Tree, target: Tree): (r: seq<DiffEvent>)
    requires forall p :: p in order ==> p in target
    ensures forall i :: 0 <= i < |r| ==> r[i].kind != Delete && r[i].path in order
    ensures forall i :: 0 <= i < |r| && r[i].kind == Add ==>
      r[i].path !in base && r[i].base == None && r[i].target == Some(target[r[i].path])
    ensures forall i :: 0 <= i < |r| && r[i].kind == Modify ==>
      && r[i].path in ModifiedPaths(base, target)
      && r[i].base == Some(base[r[i].path]) && r[i].target == Some(target[r[i].path])
  {
    if |order| == 0 then []
    else
      var p := order[0];
      var here :=
        if p !in base then [DiffEvent(Add, None, Some(target[p]), p)]
        else if base[p].File? && target[p].File? && !IsSameFile(base[p].info, target[p].info)
        then [DiffEvent(Modify, Some(base[p]), Some(target[p]), p)]
        else [];
      here + AddModifyEvents(order[1..], base, target)
  }

  /** The Add events name exactly the enumerated paths the base lacks. */
  lemma {:induction false} AddEventsPaths(order: seq<Path>, base: Tree, target: Tree)
    requires forall p :: p in order ==> p in target
    ensures PathsOf(AddModifyEvents(order, base, target), Add) == set p | p in order && p !in base
  {
    if |order| > 0 {
      var p := order[0];
      var rest := AddModifyEvents(order[1..], base, target);
      var here :=
        if p !in base then [DiffEvent(Add, None, Some(target[p]), p)]
        else if base[p].File? && target[p].File? && !IsSameFile(base[p].info, target[p].info)
        then [DiffEvent(Modify, Some(base[p]), Some(target[p]), p)]
        else [];
      AddEventsPaths(order[1..], base, target);
      PathsOfConcat(here, rest, Add);
      assert forall q :: q in order <==> q == p || q in order[1..];
    }
  }

  /** The Modify events name exactly the enumerated paths whose files
      differ. */
  lemma {:induction false} ModifyEventsPaths(order: seq<Path>, base: Tree, target: Tree)
    requires forall p :: p in order ==> p in target
    ensures PathsOf(AddModifyEvents(order, base, target), Modify)
         == set p | p in order && p in ModifiedPaths(base, target)
  {
    if |order| > 0 {
      var p := order[0];
      var rest := AddModifyEvents(order[1..], base, target);
      var here :=
        if p !in base then [DiffEvent(Add, None, Some(target[p]), p)]
        else if base[p].File? && target[p].File? && !IsSameFile(base[p].info, target[p].info)
        then [DiffEvent(Modify, Some(base[p]), Some(target[p]), p)]
        else [];
      ModifyEventsPaths(order[1..], base, target);
      PathsOfConcat(here, rest, Modify);
      assert forall q :: q in order <==> q == p || q in order[1..];
    }
  }

  lemma {:induction false} AddModifyEventsDistinct(order: seq<Path>, base: Tree, target: Tree)
    requires forall p :: p in order ==> p in target
    requires forall i, j :: 0 <= i < j < |order| ==> order[i] != order[j]
    ensures DistinctPaths(AddModifyEvents(order, base, target))
  {
    if |order| > 0 {
      AddModifyEventsDistinct(order[1..], base, target);
      var rest := AddModifyEvents(order[1..], base, target);
      assert forall i :: 0 <= i < |rest| ==> rest[i].path != order[0] by {
        forall i | 0 <= i < |rest| ensures rest[i].path != order[0] {
          var k :| 0 <= k < |order[1..]| && order[1..][k] == rest[i].path;
          assert order[k + 1] == rest[i].path;
        }
      }
    }
  }

  /** All events of one comparison, in the order the callback sees them:
      exactly one event per changed path, every Delete first. */
  function Events(baseOrder: seq<Path>, targetOrder: seq<Path>, base: Tree, target: Tree): (r: seq<DiffEvent>)
    requires Enumerates(baseOrder, base) && Enumerates(targetOrder, target)
    ensures PathsOf(r, Delete) == base.Keys - target.Keys
    ensures PathsOf(r, Add) == target.Keys - base.Keys
    ensures PathsOf(r, Modify) == ModifiedPaths(base, target)
    ensures EventsFaithful(r, base, target)
    ensures DistinctPaths(r)
    ensures forall i, j :: 0 <= i < j < |r| && r[j].kind == Delete ==> r[i].kind == Delete
  {
    var d := DeleteEvents(baseOrder, base, target);
    var am := AddModifyEvents(targetOrder, base, target);
    EventsProperties(baseOrder, targetOrder, base, target);
    d + am
  }

  lemma EventsProperties(baseOrder: seq<Path>, targetOrder: seq<Path>, base: Tree, target: Tree)
    requires Enumerates(baseOrder, base) && Enumerates(targetOrder, target)
    ensures var r := DeleteEvents(baseOrder, base, target) + AddModifyEvents(targetOrder, base, target);
      && PathsOf(r, Delete) == base.Keys - target.Keys
      && PathsOf(r, Add) == target.Keys - base.Keys
      && PathsOf(r, Modify) == ModifiedPaths(base, target)
      && EventsFaithful(r, base, target)
      && DistinctPaths(r)
      && forall i, j :: 0 <= i < j < |r| && r[j].kind == Delete ==> r[i].kind == Delete
  {
    EventsPaths(baseOrder, targetOrder, base, target);
    EventsShape(baseOrder, targetOrder, base, target);
  }

  lemma EventsPaths(baseOrder: seq<Path>, targetOrder: seq<Path>, base: Tree, target: Tree)
    requires Enumerates(baseOrder, base) && Enumerates(targetOrder, target)
    ensures var r := DeleteEvents(baseOrder, base, target) + AddModifyEvents(targetOrder, base, target);
      && PathsOf(r, Delete) == base.Keys - target.Keys
      && PathsOf(r, Add) == target.Keys - base.Keys
      && PathsOf(r, Modify) == ModifiedPaths(base, target)
  {
    var d := DeleteEvents(baseOrder, base, target);
    var am := AddModifyEvents(targetOrder, base, target);
    NoOtherKinds(d, am);
    DeletePathsOfAll(baseOrder, targetOrder, base, target);
    AddPathsOfAll(baseOrder, targetOrder, base, target);
    ModifyPathsOfAll(baseOrder, targetOrder, base, target);
  }

  lemma DeletePathsOfAll(baseOrder: seq<Path>, targetOrder: seq<Path>, base: Tree, target: Tree)
    requires Enumerates(baseOrder, base) && Enumerates(targetOrder, target)
    ensures PathsOf(DeleteEvents(baseOrder, base, target) + AddModifyEvents(targetOrder, base, target), Delete)
         == base.Keys - target.Keys
  {
    var d := DeleteEvents(baseOrder, base, target);
    var am := AddModifyEvents(targetOrder, base, target);
    NoOtherKinds(d, am);
    DeleteEventsPaths(baseOrder, base, target);
    PathsOfConcat(d, am, Delete);
    assert (set p | p in baseOrder && p !in target) == base.Keys - target.Keys;
  }

  lemma AddPathsOfAll(baseOrder: seq<Path>, targetOrder: seq<Path>, base: Tree, target: Tree)
    requires Enumerates(baseOrder, base) && Enumerates(targetOrder, target)
    ensures PathsOf(DeleteEvents(baseOrder, base, target) + AddModifyEvents(targetOrder, base, target), Add)
         == target.Keys - base.Keys
  {
    var d := DeleteEvents(baseOrder, base, target);
    var am := AddModifyEvents(targetOrder, base, target);
    NoOtherKinds(d, am);
    AddEventsPaths(targetOrder, base, target);
    PathsOfConcat(d, am, Add);
    assert (set p | p in targetOrder && p !in base) == target.Keys - base.Keys;
  }

  lemma ModifyPathsOfAll(baseOrder: seq<Path>, targetOrder: seq<Path>, base: Tree, target: Tree)
    requires Enumerates(baseOrder, base) && Enumerates(targetOrder, target)
    ensures PathsOf(DeleteEvents(baseOrder, base, target) + AddModifyEvents(targetOrder, base, target), Modify)
         == ModifiedPaths(base, target)
  {
    var d := DeleteEvents(baseOrder, base, target);
    var am := AddModifyEvents(targetOrder, base, target);
    NoOtherKinds(d, am);
    ModifyEventsPaths(targetOrder, base, target);
    PathsOfConcat(d, am, Modify);
    assert (set p | p in targetOrder && p in ModifiedPaths(base, target)) == ModifiedPaths(base, target);
  }

  lemma EventsShape(baseOrder: seq<Path>, targetOrder: seq<Path>, base: Tree, target: Tree)
    requires Enumerates(baseOrder, base) && Enumerates(targetOrder, target)
    ensures var r := DeleteEvents(baseOrder, base, target) + AddModifyEvents(targetOrder, base, target);
      && EventsFaithful(r, base, target)
      && DistinctPaths(r)
      && forall i, j :: 0 <= i < j < |r| && r[j].kind == Delete ==> r[i].kind == Delete
  {
    EventsDistinct(baseOrder, targetOrder, base, target);
    EventsFaithfulAll(baseOrder, targetOrder, base, target);
    DeletesFirst(baseOrder, targetOrder, base, target);
  }

  lemma EventsDistinct(baseOrder: seq<Path>, targetOrder: seq<Path>, base: Tree, target: Tree)
    requires Enumerates(baseOrder, base) && Enumerates(targetOrder, target)
    ensures DistinctPaths(DeleteEvents(baseOrder, base, target) + AddModifyEvents(targetOrder, base, target))
  {
    var d := DeleteEvents(baseOrder, base, target);
    var am := AddModifyEvents(targetOrder, base, target);
    DeleteEventsDistinct(baseOrder, base, target);
    AddModifyEventsDistinct(targetOrder, base, target);
    assert forall i :: 0 <= i < |d| ==> d[i].path !in target;
    assert forall j :: 0 <= j < |am| ==> am[j].path in target;
    ConcatDistinct(d, am, target);
  }

  /** Two event lists without repeats, the first about paths outside a set
      and the second about paths inside it, concatenate without repeats. */
  lemma ConcatDistinct(d: seq<DiffEvent>, am: seq<DiffEvent>, target: Tree)
    requires DistinctPaths(d) && DistinctPaths(am)
    requires forall i :: 0 <= i < |d| ==> d[i].path !in target
    requires forall j :: 0 <= j < |am| ==> am[j].path in target
    ensures DistinctPaths(d + am)
  {
    var r := d + am;
    forall i, j | 0 <= i < j < |r| ensures r[i].path != r[j].path {
      if j < |d| {
        assert r[i] == d[i] && r[j] == d[j];
      } else if i >= |d| {
        assert r[i] == am[i - |d|] && r[j] == am[j - |d|];
      } else {
        assert r[i] == d[i] && r[j] == am[j - |d|];
      }
    }
  }

  lemma EventsFaithfulAll(baseOrder: seq<Path>, targetOrder: seq<Path>, base: Tree, target: Tree)
    requires Enumerates(baseOrder, base) && Enumerates(targetOrder, target)
    ensures EventsFaithful(DeleteEvents(baseOrder, base, target) + AddModifyEvents(targetOrder, base, target), base, target)
  {
    var d := DeleteEvents(baseOrder, base, target);
    var am := AddModifyEvents(targetOrder, base, target);
    assert EventsFaithful(d, base, target);
    assert EventsFaithful(am, base, target) by {
      forall i | 0 <= i < |am| ensures am[i].path in target {
        assert am[i].path in targetOrder;
      }
    }
    FaithfulConcat(d, am, base, target);
  }

  lemma FaithfulConcat(a: seq<DiffEvent>, b: seq<DiffEvent>, base: Tree, target: Tree)
    requires EventsFaithful(a, base, target) && EventsFaithful(b, base, target)
    ensures EventsFaithful(a + b, base, target)
  {
    var r := a + b;
    forall i | 0 <= i < |r| ensures
      var e := r[i];
      && (e.base.Some? <==> e.path in base)
      && (e.base.Some? ==> e.base.value == base[e.path])
      && (e.target.Some? <==> e.path in target)
      && (e.target.Some? ==> e.target.value == target[e.path])
    {
      if i < |a| { assert r[i] == a[i]; } else { assert r[i] == b[i - |a|]; }
    }
  }

  lemma DeletesFirst(baseOrder: seq<Path>, targetOrder: seq<Path>, base: Tree, target: Tree)
    requires Enumerates(baseOrder, base) && Enumerates(targetOrder, target)
    ensures var r := DeleteEvents(baseOrder, base, target) + AddModifyEvents(targetOrder, base, target);
      forall i, j :: 0 <= i < j < |r| && r[j].kind == Delete ==> r[i].kind == Delete
  {
    var d := DeleteEvents(baseOrder, base, target);
    var am := AddModifyEvents(targetOrder, base, target);
    var r := d + am;
    forall i, j | 0 <= i < j < |r| && r[j].kind == Delete ensures r[i].kind == Delete {
      assert j < |d|;
      assert r[i] == d[i];
    }
  }

  /** Delete events only in the first part, none in the second. */
  lemma NoOtherKinds(d: seq<DiffEvent>, am: seq<DiffEvent>)
    requires forall i :: 0 <= i < |d| ==> d[i].kind == Delete
    requires forall i :: 0 <= i < |am| ==> am[i].kind != Delete
    ensures PathsOf(d, Add) == {} && PathsOf(d, Modify) == {} && PathsOf(am, Delete) == {}
  {
    forall p ensures p !in PathsOf(d, Add) && p !in PathsOf(d, Modify) && p !in PathsOf(am, Delete) {
      PathsOfMember(d, Add, p);
      PathsOfMember(d, Modify, p);
      PathsOfMember(am, Delete, p);
    }
  }

  /** Hands the events to the callback one by one and stops at the first
      one it refuses. */
  function Feed(events: seq<DiffEvent>, callback: DiffEvent -> bool): (r: CompareRun)
    ensures |r.calls| <= |events| && r.calls == events[..|r.calls|]
    ensures r.result.Pass? <==> r.calls == events && forall i :: 0 <= i < |events| ==> callback(events[i])
    ensures r.result.Fail? ==>
      && r.result.error == Interrupted
      && |r.calls| > 0 && !callback(r.calls[|r.calls| - 1])
      && forall i :: 0 <= i < |r.calls| - 1 ==> callback(r.calls[i])
  {
    if |events| == 0 then CompareRun([], Pass)
    else if !callback(events[0]) then CompareRun([events[0]], Fail(Interrupted))
    else
      var rest := Feed(events[1..], callback);
      assert forall i :: 1 <= i < |events| ==> events[i] == events[1..][i - 1];
      CompareRun([events[0]] + rest.calls, rest.result)
  }

  /** The listings of both roots are enumerated by the given orders. */
  ghost predicate OrdersFit(base: Root, target: Root, baseOrder: seq<Path>, targetOrder: seq<Path>) {
    && (base.Present? && base.node.DirNode? ==> Enumerates(baseOrder, FileMap(base.node.children)))
    && (target.Present? && target.node.DirNode? ==> Enumerates(targetOrder, FileMap(target.node.children)))
  }

  /** Both roots exist and are directories. */
  predicate BothDirectories(base: Root, target: Root) {
    base.Present? && base.node.DirNode? && target.Present? && target.node.DirNode?
  }

  /** `compare_directories`. */
  function CompareDirectories(base: Root, target: Root, baseOrder: seq<Path>, targetOrder: seq<Path>,
                              callback: DiffEvent -> bool): (r: CompareRun)
    requires OrdersFit(base, target, baseOrder, targetOrder)
    ensures !BothDirectories(base, target) ==> r.calls == [] && r.result.Fail?
    ensures base.Missing? ==> r.result == Fail(BaseMissing)
    ensures base.Present? && target.Missing? ==> r.result == Fail(TargetMissing)
    ensures base.Present? && target.Present? && base.node.FileNode? ==> r.result == Fail(BaseNotDirectory)
    ensures base.Present? && target.Present? && base.node.DirNode? && target.node.FileNode? ==>
              r.result == Fail(TargetNotDirectory)
    ensures BothDirectories(base, target) ==>
              r == Feed(Events(baseOrder, targetOrder, FileMap(base.node.children), FileMap(target.node.children)), callback)
  {
    if base.Missing? then CompareRun([], Fail(BaseMissing))
    else if target.Missing? then CompareRun([], Fail(TargetMissing))
    else if !base.node.DirNode? then CompareRun([], Fail(BaseNotDirectory))
    else if !target.node.DirNode? then CompareRun([], Fail(TargetNotDirectory))
    else
      var baseFiles := FileMap(base.node.children);
      var targetFiles := FileMap(target.node.children);
      Feed(Events(baseOrder, targetOrder, baseFiles, targetFiles), callback)
  }
}

=== FILE: fs.dfy ===
/** A mounted image seen through relative paths: a finite map from the path
    of every file and directory below the mount root (components joined by
    '\') to what is stored there. The few `std::fs` calls the patch engine
    makes on a mount are modelled as functions on this map. */
module Fs {
  import opened Wrappers
  import opened Manifest

  type byte = x: int | 0 <= x < 256
  type Path = string

  /** File contents; no file is longer than a 64-bit length can say. */
  type Bytes = s: seq<byte> | |s| < 0x1_0000_0000_0000_0000

  const Sep: char := '\\'

  /** What `metadata()` and `File::open` report about a file: the size, the
      modification time (None when it cannot be read), the bytes, and
      whether the file can be opened at all. */
  datatype FileInfo = FileInfo(size: u64, mtime: Option<u64>, data: Bytes, readable: bool)

  datatype Entry = Dir | File(info: FileInfo)

  type Tree = map<Path, Entry>

  /** The length `metadata().len()` reports; a directory reports 0. */
  function EntrySize(e: Entry): u64 {
    match e
    case Dir => 0
    case File(info) => info.size
  }

  /** `a` names a directory on the way from the root to `p`. */
  predicate IsAncestor(a: Path, p: Path) {
    0 < |a| < |p| && p[|a|] == Sep && p[..|a|] == a
  }

  function Ancestors(p: Path): (r: set<Path>)
    ensures forall a :: a in r <==> IsAncestor(a, p)
  {
    set i | 0 < i < |p| && p[i] == Sep :: p[..i]
  }

  /** The directories `create_dir_all(p)` makes sure of. */
  function AncestorsOrSelf(p: Path): (r: set<Path>)
    ensures forall a :: a in r <==> IsAncestor(a, p) || (a == p && p != "")
  {
    if p == "" then {} else Ancestors(p) + {p}
  }

  /** Creates every directory of `dirs` that is missing. Fails, changing
      nothing, when one of them is an existing file. */
  function CreateDirs(t: Tree, dirs: set<Path>): (r: Option<Tree>)
    ensures r.Some? <==> forall a :: a in dirs && a in t ==> t[a] == Dir
    ensures r.Some? ==> r.value.Keys == t.Keys + dirs
    ensures r.Some? ==> forall a :: a in dirs ==> r.value[a] == Dir
    ensures r.Some? ==> forall q :: q in t ==> r.value[q] == t[q]
  {
    if forall a | a in dirs :: a in t ==> t[a] == Dir
    then Some(t + map a | a in dirs :: Dir)
    else None
  }

  /** `create_dir_all(p)`. */
  function CreateDirAll(t: Tree, p: Path): Option<Tree> {
    CreateDirs(t, AncestorsOrSelf(p))
  }

  /** `create_dir_all(p.parent())`: the parent of `p` and every directory
      above it. */
  function CreateParents(t: Tree, p: Path): Option<Tree> {
    CreateDirs(t, Ancestors(p))
  }

  /** The directories above `p` exist, so a file can be created at `p`. */
  predicate ParentReady(t: Tree, p: Path) {
    forall a | a in Ancestors(p) :: a in t && t[a] == Dir
  }

  /** `remove_dir_all(p)` or `remove_file(p)`: `p` and everything below it
      disappear, nothing else changes. */
  function RemoveAll(t: Tree, p: Path): (r: Tree)
    ensures forall q :: q in r <==> q in t && q != p && !IsAncestor(p, q)
    ensures forall q :: q in r ==> r[q] == t[q]
  {
    map q | q in t && q != p && !IsAncestor(p, q) :: t[q]
  }

  /** Creating or truncating a file at `p` (`File::create`, `fs::write`)
      needs its parent directories and no directory at `p`. */
  predicate CanCreateFile(t: Tree, p: Path) {
    ParentReady(t, p) && !(p in t && t[p] == Dir)
  }

  /** `fs::copy(src, p)`: the source must be a file that can be opened; the
      copy keeps its size, time stamp and bytes. */
  function Copy(t: Tree, src: Option<Entry>, p: Path): (r: Option<Tree>)
    ensures r.Some? <==> src.Some? && src.value.File? && src.value.info.readable && CanCreateFile(t, p)
    ensures r.Some? ==> r.value == t[p := src.value]
  {
    if src.Some? && src.value.File? && src.value.info.readable && CanCreateFile(t, p)
    then Some(t[p := src.value])
    else None
  }

  /** Writes a fresh file holding `data`, stamped with the clock reading. */
  function WriteFile(t: Tree, p: Path, data: Bytes, clock: u64): (r: Option<Tree>)
    ensures r.Some? <==> CanCreateFile(t, p)
    ensures r.Some? ==> p in r.value && r.value[p].File? && r.value[p].info.data == data
    ensures r.Some? ==> forall q :: q in t && q != p ==> q in r.value && r.value[q] == t[q]
  {
    if CanCreateFile(t, p) then Some(t[p := File(NewFile(data, clock))]) else None
  }

  function NewFile(data: Bytes, clock: u64): FileInfo {
    FileInfo(if |data| < 0x1_0000_0000_0000_0000 then |data| else 0, Some(clock), data, true)
  }
}

=== FILE: manifest.dfy ===
/** The patch manifest records stored, as XML, in the image information of
    every image of a patch file: the identity of the base and target images
    and the ordered list of file operations. */
module Manifest {
  import opened Wrappers

  type u32 = x: int | 0 <= x < 0x1_0000_0000
  type u64 = x: int | 0 <= x < 0x1_0000_0000_0000_0000

  /** The per-image statistics block of a WIM image. Equality of two values
      is structural over all ten fields, as the derived `PartialEq` of the
      source; the chain matcher relies on exactly that comparison. */
  datatype ImageInfo = ImageInfo(
    index: u32,
    name: Option<string>,
    displayName: Option<string>,
    description: Option<string>,
    displayDescription: Option<string>,
    flags: Option<string>,
    dirCount: u64,
    fileCount: u64,
    hardLinkBytes: u64,
    totalBytes: u64)

  /** What an operation does to one path of the image. */
  datatype Action = Add | Delete | Modify

  /** One file operation. `storage` names the encoding of a Modify payload
      ("full", "zstd" or "bsdiff"); `size` is the size of the new content. */
  datatype Operation = Operation(
    action: Action,
    path: string,
    size: Option<u64>,
    storage: Option<string>)

  datatype PatchManifest = PatchManifest(
    id: string,
    name: string,
    patchVersion: string,
    timestamp: string,
    toolVersion: string,
    author: string,
    description: string,
    baseImageGuid: string,
    baseImageInfo: ImageInfo,
    targetImageGuid: string,
    targetImageInfo: ImageInfo,
    operations: seq<Operation>)

  /** `PatchManifest::new`. The fresh UUID, the clock reading and the crate
      version the source fills in are supplied by the caller. */
  function NewManifest(
    name: string, description: string, author: string, version: string,
    baseImageGuid: string, baseImageInfo: ImageInfo,
    targetImageGuid: string, targetImageInfo: ImageInfo,
    operations: seq<Operation>,
    id: string, timestamp: string, toolVersion: string): (m: PatchManifest)
    ensures m.name == name && m.description == description && m.author == author
    ensures m.patchVersion == version
    ensures m.baseImageGuid == baseImageGuid && m.baseImageInfo == baseImageInfo
    ensures m.targetImageGuid == targetImageGuid && m.targetImageInfo == targetImageInfo
    ensures |m.operations| == |operations|
    ensures forall i :: 0 <= i < |operations| ==> m.operations[i] == operations[i]
    ensures m.id == id && m.timestamp == timestamp && m.toolVersion == toolVersion
  {
    PatchManifest(id, name, version, timestamp, toolVersion, author, description,
                  baseImageGuid, baseImageInfo, targetImageGuid, targetImageInfo, operations)
  }
}

=== FILE: patchchain.dfy ===
/** `match_patch`: the patch-chain matcher. Starting from each image of the
    base WIM in turn, it repeatedly picks, among the patches not yet used
    whose base GUID and base index fit the current image, the one with the
    lowest version (the first in patch order on a tie: the source sorts the
    candidates with a stable sort and takes the head), checks that the
    current image statistics equal the patch's recorded base statistics
    unless forced, and moves on to the patch's target image. */
module PatchChain {
  import opened Wrappers
  import opened Manifest
  import opened SemVer

  /** One image of a patch file: its index in the file and its manifest. */
  datatype Patch = Patch(index: u32, manifest: PatchManifest)

  /** The current image statistics differ from those the picked patch was
      made against; `index` is the current image index. */
  datatype ChainError = BaseNotMatch(index: u32)

  /** A grown chain: where each link sits in the patch list, the statistics
      of the image the chain ends at, and the patch indices used so far. */
  datatype Chain = Chain(positions: seq<nat>, final: ImageInfo, used: set<u32>)

  /** One entry of the matcher's result: the final target statistics and
      the chain that leads there. */
  datatype Match = Match(final: ImageInfo, chain: seq<Patch>)

  /** The identity filter: same base GUID, same base index, not yet used. */
  predicate Eligible(guid: string, cur: ImageInfo, used: set<u32>, p: Patch) {
    && cur.index == p.manifest.baseImageInfo.index
    && guid == p.manifest.baseImageGuid
    && p.index !in used
  }

  /** The patch at `pos` is the one the sort-and-take-first selects: it is
      eligible, no eligible patch has a lower version, and every eligible
      patch before it has a strictly higher one. */
  ghost predicate IsPick(guid: string, cur: ImageInfo, used: set<u32>, patches: seq<Patch>, keys: seq<Version>, pos: int) {
    && |keys| == |patches|
    && 0 <= pos < |patches|
    && Eligible(guid, cur, used, patches[pos])
    && (forall i :: 0 <= i < |patches| && Eligible(guid, cur, used, patches[i]) ==>
          !Less(keys[i], keys[pos]))
    && (forall i :: 0 <= i < pos && Eligible(guid, cur, used, patches[i]) ==>
          Less(keys[pos], keys[i]))
  }

  /** `pos` is the pick among the first `upto` patches. */
  ghost predicate PickBelow(guid: string, cur: ImageInfo, used: set<u32>, patches: seq<Patch>, keys: seq<Version>, pos: int, upto: int) {
    && |keys| == |patches|
    && 0 <= pos < upto <= |patches|
    && Eligible(guid, cur, used, patches[pos])
    && (forall i :: 0 <= i < upto && Eligible(guid, cur, used, patches[i]) ==>
          !Less(keys[i], keys[pos]))
    && (forall i :: 0 <= i < pos && Eligible(guid, cur, used, patches[i]) ==>
          Less(keys[pos], keys[i]))
  }

  /** The candidate filter and the stable sort, as one scan: `best` is the
      first lowest-versioned eligible patch before `from`; a later patch
      replaces it only with a strictly lower version. */
  function PickFrom(guid: string, cur: ImageInfo, used: set<u32>, patches: seq<Patch>, keys: seq<Version>, from: nat, best: Option<nat>): (r: Option<nat>)
    requires |keys| == |patches|
    requires from <= |patches|
    requires best.Some? ==> PickBelow(guid, cur, used, patches, keys, best.value, from)
    requires best.None? ==> forall i :: 0 <= i < from ==> !Eligible(guid, cur, used, patches[i])
    ensures r.None? ==> forall i :: 0 <= i < |patches| ==> !Eligible(guid, cur, used, patches[i])
    ensures r.Some? ==> PickBelow(guid, cur, used, patches, keys, r.value, |patches|)
    decreases |patches| - from
  {
    if from == |patches| then best
    else if Eligible(guid, cur, used, patches[from])
         && (best.None? || Less(keys[from], keys[best.value]))
    then
      PickReplace(guid, cur, used, patches, keys, from, best);
      PickFrom(guid, cur, used, patches, keys, from + 1, Some(from))
    else
      PickKeep(guid, cur, used, patches, keys, from, best);
      PickFrom(guid, cur, used, patches, keys, from + 1, best)
  }

  /** A strictly lower eligible patch becomes the new pick. */
  lemma PickReplace(guid: string, cur: ImageInfo, used: set<u32>, patches: seq<Patch>, keys: seq<Version>, from: nat, best: Option<nat>)
    requires |keys| == |patches|
    requires from < |patches| && Eligible(guid, cur, used, patches[from])
    requires best.Some? ==> PickBelow(guid, cur, used, patches, keys, best.value, from)
    requires best.None? ==> forall i :: 0 <= i < from ==> !Eligible(guid, cur, used, patches[i])
    requires best.Some? ==> Less(keys[from], keys[best.value])
    ensures PickBelow(guid, cur, used, patches, keys, from, from + 1)
  {
    if best.Some? {
      var b := keys[best.value];
      var n := keys[from];
      forall i | 0 <= i < from && Eligible(guid, cur, used, patches[i])
        ensures Less(n, keys[i])
      {
        LessTotal(keys[i], b);
        if keys[i] != b { LessTransitive(n, b, keys[i]); }
      }
      forall i | 0 <= i < from + 1 && Eligible(guid, cur, used, patches[i])
        ensures !Less(keys[i], n)
      {
        if i < from { LessTotal(keys[i], n); } else { LessTotal(n, n); }
      }
    }
  }

  /** A patch that is not eligible or not strictly lower keeps the pick. */
  lemma PickKeep(guid: string, cur: ImageInfo, used: set<u32>, patches: seq<Patch>, keys: seq<Version>, from: nat, best: Option<nat>)
    requires |keys| == |patches|
    requires from < |patches|
    requires best.Some? ==> PickBelow(guid, cur, used, patches, keys, best.value, from)
    requires best.None? ==> forall i :: 0 <= i < from ==> !Eligible(guid, cur, used, patches[i])
    requires !(Eligible(guid, cur, used, patches[from]) && (best.None? || Less(keys[from], keys[best.value])))
    ensures best.Some? ==> PickBelow(guid, cur, used, patches, keys, best.value, from + 1)
    ensures best.None? ==> forall i :: 0 <= i < from + 1 ==> !Eligible(guid, cur, used, patches[i])
  {
    if best.Some? {
      LessTotal(keys[from], keys[best.value]);
    }
  }

  /** The candidate selection of one step: None when nothing is eligible. */
  function Pick(guid: string, cur: ImageInfo, used: set<u32>, patches: seq<Patch>, keys: seq<Version>): (r: Option<nat>)
    requires |keys| == |patches|
    ensures r.None? <==> forall i :: 0 <= i < |patches| ==> !Eligible(guid, cur, used, patches[i])
    ensures r.Some? ==> IsPick(guid, cur, used, patches, keys, r.value)
  {
    PickFrom(guid, cur, used, patches, keys, 0, None)
  }

  /** The indices of the patch list. */
  function IndexSet(patches: seq<Patch>): set<u32> {
    set p | p in patches :: p.index
  }

  /** `positions` is a chain from `cur` with `used` taken: each link is the
      pick of its step, and the chain ends at `final` having used `usedEnd`. */
  ghost predicate Links(guid: string, patches: seq<Patch>, keys: seq<Version>, cur: ImageInfo, used: set<u32>,
                        positions: seq<nat>, final: ImageInfo, usedEnd: set<u32>)
    decreases |positions|
  {
    if |positions| == 0 then final == cur && usedEnd == used
    else
      && IsPick(guid, cur, used, patches, keys, positions[0])
      && var p := patches[positions[0]];
         Links(guid, patches, keys, p.manifest.targetImageInfo, used + {p.index}, positions[1..], final, usedEnd)
  }

  /** Without force, every link's recorded base statistics equal the image
      it is applied to. */
  ghost predicate Checked(patches: seq<Patch>, cur: ImageInfo, positions: seq<nat>)
    decreases |positions|
  {
    |positions| > 0 ==>
      && positions[0] < |patches|
      && patches[positions[0]].manifest.baseImageInfo == cur
      && Checked(patches, patches[positions[0]].manifest.targetImageInfo, positions[1..])
  }

  /** The inner loop: grows one chain from the image `cur`. */
  function GrowChain(guid: string, patches: seq<Patch>, keys: seq<Version>, force: bool, cur: ImageInfo, used: set<u32>): (r: Result<Chain, ChainError>)
    requires |keys| == |patches|
    ensures r.Success? ==> forall k :: 0 <= k < |r.value.positions| ==> r.value.positions[k] < |patches|
    ensures r.Success? ==> used <= r.value.used
    ensures r.Failure? ==> !force
    decreases IndexSet(patches) - used
  {
    match Pick(guid, cur, used, patches, keys)
    case None => Success(Chain([], cur, used))
    case Some(pos) =>
      var p := patches[pos];
      if cur != p.manifest.baseImageInfo && !force then Failure(BaseNotMatch(cur.index))
      else
        assert p.index in IndexSet(patches) - used;
        match GrowChain(guid, patches, keys, force, p.manifest.targetImageInfo, used + {p.index})
        case Failure(e) => Failure(e)
        case Success(rest) => Success(Chain([pos] + rest.positions, rest.final, rest.used))
  }

  /** A grown chain is made of the picks of its steps, stops only when no
      patch is eligible any more, and, without force, has passed the
      statistics check at every link. */
  lemma {:induction false} GrowChainSound(guid: string, patches: seq<Patch>, keys: seq<Version>, force: bool, cur: ImageInfo, used: set<u32>)
    requires |keys| == |patches|
    requires GrowChain(guid, patches, keys, force, cur, used).Success?
    ensures var c := GrowChain(guid, patches, keys, force, cur, used).value;
      && Links(guid, patches, keys, cur, used, c.positions, c.final, c.used)
      && (forall i :: 0 <= i < |patches| ==> !Eligible(guid, c.final, c.used, patches[i]))
      && (!force ==> Checked(patches, cur, c.positions))
    decreases IndexSet(patches) - used
  {
    match Pick(guid, cur, used, patches, keys)
    case None =>
    case Some(pos) =>
      var p := patches[pos];
      assert p.index in IndexSet(patches) - used;
      var next := p.manifest.targetImageInfo;
      GrowChainSound(guid, patches, keys, force, next, used + {p.index});
      var rest := GrowChain(guid, patches, keys, force, next, used + {p.index}).value;
      var c := GrowChain(guid, patches, keys, force, cur, used).value;
      assert c.positions[1..] == rest.positions;
  }

  /** The patches a chain's positions denote. */
  function LinksOf(patches: seq<Patch>, positions: seq<nat>): (r: seq<Patch>)
    requires forall k :: 0 <= k < |positions| ==> positions[k] < |patches|
    ensures |r| == |positions|
    ensures forall k :: 0 <= k < |r| ==> r[k] == patches[positions[k]]
  {
    seq(|positions|, k requires 0 <= k < |positions| => patches[positions[k]])
  }

  lemma {:induction false} LinksInRange(guid: string, patches: seq<Patch>, keys: seq<Version>, cur: ImageInfo, used: set<u32>,
                                        positions: seq<nat>, final: ImageInfo, usedEnd: set<u32>)
    requires Links(guid, patches, keys, cur, used, positions, final, usedEnd)
    ensures forall k :: 0 <= k < |positions| ==> positions[k] < |patches|
    decreases |positions|
  {
    if |positions| > 0 {
      var p := patches[positions[0]];
      LinksInRange(guid, patches, keys, p.manifest.targetImageInfo, used + {p.index}, positions[1..], final, usedEnd);
      assert forall k :: 1 <= k < |positions| ==> positions[k] == positions[1..][k - 1];
    }
  }

  /** The image the `k`-th link of a chain is applied to. */
  function CurAt(patches: seq<Patch>, start: ImageInfo, positions: seq<nat>, k: nat): ImageInfo
    requires k <= |positions|
    requires forall j :: 0 <= j < |positions| ==> positions[j] < |patches|
  {
    if k == 0 then start else patches[positions[k - 1]].manifest.targetImageInfo
  }

  /** The patch indices of a chain's links. */
  function ChainIndices(patches: seq<Patch>, positions: seq<nat>): set<u32>
    requires forall j :: 0 <= j < |positions| ==> positions[j] < |patches|
  {
    if |positions| == 0 then {}
    else {patches[positions[0]].index} + ChainIndices(patches, positions[1..])
  }

  lemma {:induction false} ChainIndicesMember(patches: seq<Patch>, positions: seq<nat>, j: nat)
    requires forall j :: 0 <= j < |positions| ==> positions[j] < |patches|
    requires j < |positions|
    ensures patches[positions[j]].index in ChainIndices(patches, positions)
  {
    if j > 0 {
      assert positions[1..][j - 1] == positions[j];
      ChainIndicesMember(patches, positions[1..], j - 1);
    }
  }

  /** The patch indices used before the `k`-th link. */
  function UsedAt(patches: seq<Patch>, used: set<u32>, positions: seq<nat>, k: nat): set<u32>
    requires k <= |positions|
    requires forall j :: 0 <= j < |positions| ==> positions[j] < |patches|
  {
    used + ChainIndices(patches, positions[..k])
  }

  /** Dropping the first link shifts `CurAt` and `UsedAt` by one. */
  lemma {:induction false} AtShift(patches: seq<Patch>, cur: ImageInfo, used: set<u32>, positions: seq<nat>, k: nat)
    requires forall j :: 0 <= j < |positions| ==> positions[j] < |patches|
    requires 0 < |positions| && k < |positions|
    ensures var p := patches[positions[0]];
      && CurAt(patches, cur, positions, k + 1) == CurAt(patches, p.manifest.targetImageInfo, positions[1..], k)
      && UsedAt(patches, used, positions, k + 1) == UsedAt(patches, used + {p.index}, positions[1..], k)
  {
    var tail := positions[1..];
    if k > 0 { assert tail[k - 1] == positions[k]; }
    assert positions[..k + 1][1..] == tail[..k];
    assert positions[..k + 1][0] == positions[0];
  }

  /** The `k`-th link of a chain is the pick from the image the previous
      link produced, with all earlier links' indices used. */
  lemma {:induction false} LinkAt(guid: string, patches: seq<Patch>, keys: seq<Version>, cur: ImageInfo, used: set<u32>,
                                  positions: seq<nat>, final: ImageInfo, usedEnd: set<u32>, k: nat)
    requires Links(guid, patches, keys, cur, used, positions, final, usedEnd)
    requires k < |positions|
    ensures forall j :: 0 <= j < |positions| ==> positions[j] < |patches|
    ensures IsPick(guid, CurAt(patches, cur, positions, k), UsedAt(patches, used, positions, k), patches, keys, positions[k])
    decreases k
  {
    LinksInRange(guid, patches, keys, cur, used, positions, final, usedEnd);
    if k == 0 {
      assert positions[..0] == [];
    } else {
      var p := patches[positions[0]];
      var tail := positions[1..];
      LinkAt(guid, patches, keys, p.manifest.targetImageInfo, used + {p.index}, tail, final, usedEnd, k - 1);
      AtShift(patches, cur, used, positions, k - 1);
      assert positions[k] == tail[k - 1];
    }
  }

  /** A chain ends at its last link's target, having used exactly the
      starting set plus its own indices. */
  lemma {:induction false} LinksEnd(guid: string, patches: seq<Patch>, keys: seq<Version>, cur: ImageInfo, used: set<u32>,
                                    positions: seq<nat>, final: ImageInfo, usedEnd: set<u32>)
    requires Links(guid, patches, keys, cur, used, positions, final, usedEnd)
    ensures forall j :: 0 <= j < |positions| ==> positions[j] < |patches|
    ensures final == CurAt(patches, cur, positions, |positions|)
    ensures usedEnd == UsedAt(patches, used, positions, |positions|)
    decreases |positions|
  {
    LinksInRange(guid, patches, keys, cur, used, positions, final, usedEnd);
    if |positions| > 0 {
      var p := patches[positions[0]];
      var tail := positions[1..];
      LinksEnd(guid, patches, keys, p.manifest.targetImageInfo, used + {p.index}, tail, final, usedEnd);
      AtShift(patches, cur, used, positions, |tail|);
    } else {
      assert positions[..0] == [];
    }
  }

  /** A chain, link by link: the `k`-th link is the pick from the image the
      previous link produced, with all earlier links' indices used; the
      chain ends at the last link's target and has used exactly the
      starting set plus its own indices. */
  lemma LinksIndexed(guid: string, patches: seq<Patch>, keys: seq<Version>, cur: ImageInfo, used: set<u32>,
                     positions: seq<nat>, final: ImageInfo, usedEnd: set<u32>)
    requires Links(guid, patches, keys, cur, used, positions, final, usedEnd)
    ensures forall k :: 0 <= k < |positions| ==> positions[k] < |patches|
    ensures forall k :: 0 <= k < |positions| ==>
      IsPick(guid, CurAt(patches, cur, positions, k), UsedAt(patches, used, positions, k), patches, keys, positions[k])
    ensures final == CurAt(patches, cur, positions, |positions|)
    ensures usedEnd == UsedAt(patches, used, positions, |positions|)
  {
    LinksEnd(guid, patches, keys, cur, used, positions, final, usedEnd);
    forall k | 0 <= k < |positions|
      ensures IsPick(guid, CurAt(patches, cur, positions, k), UsedAt(patches, used, positions, k), patches, keys, positions[k])
    {
      LinkAt(guid, patches, keys, cur, used, positions, final, usedEnd, k);
    }
  }

  /** Within one chain no patch index repeats, and none was used before. */
  lemma {:induction false} ChainIndicesFresh(guid: string, patches: seq<Patch>, keys: seq<Version>, cur: ImageInfo, used: set<u32>,
                          positions: seq<nat>, final: ImageInfo, usedEnd: set<u32>)
    requires Links(guid, patches, keys, cur, used, positions, final, usedEnd)
    ensures forall k :: 0 <= k < |positions| ==> positions[k] < |patches|
    ensures forall k :: 0 <= k < |positions| ==> patches[positions[k]].index !in used
    ensures forall k, l :: 0 <= k < l < |positions| ==> patches[positions[k]].index != patches[positions[l]].index
    ensures forall k :: 0 <= k < |positions| ==> patches[positions[k]].index in usedEnd
    ensures used <= usedEnd
  {
    LinksEnd(guid, patches, keys, cur, used, positions, final, usedEnd);
    forall k, l | 0 <= k < l < |positions|
      ensures patches[positions[k]].index != patches[positions[l]].index
    {
      LinkAt(guid, patches, keys, cur, used, positions, final, usedEnd, l);
      assert positions[..l][k] == positions[k];
      ChainIndicesMember(patches, positions[..l], k);
    }
    forall k | 0 <= k < |positions| ensures patches[positions[k]].index !in used {
      LinkAt(guid, patches, keys, cur, used, positions, final, usedEnd, k);
    }
    forall k | 0 <= k < |positions| ensures patches[positions[k]].index in usedEnd {
      assert positions[..|positions|] == positions;
      ChainIndicesMember(patches, positions, k);
    }
  }

  /** The pick of a step is unique, so a chain is determined by where it
      starts: the selection rule leaves the matcher no freedom. */
  lemma PickUnique(guid: string, cur: ImageInfo, used: set<u32>, patches: seq<Patch>, keys: seq<Version>, a: int, b: int)
    requires IsPick(guid, cur, used, patches, keys, a) && IsPick(guid, cur, used, patches, keys, b)
    ensures a == b
  {
  }

  /** Force only turns the statistics check off: the forced matcher never
      fails, and whenever the checked matcher succeeds the two agree. */
  lemma {:induction false} GrowChainForce(guid: string, patches: seq<Patch>, keys: seq<Version>, cur: ImageInfo, used: set<u32>)
    requires |keys| == |patches|
    ensures GrowChain(guid, patches, keys, true, cur, used).Success?
    ensures GrowChain(guid, patches, keys, false, cur, used).Success? ==>
              GrowChain(guid, patches, keys, false, cur, used) == GrowChain(guid, patches, keys, true, cur, used)
    decreases IndexSet(patches) - used
  {
    match Pick(guid, cur, used, patches, keys)
    case None =>
    case Some(pos) =>
      var p := patches[pos];
      assert p.index in IndexSet(patches) - used;
      GrowChainForce(guid, patches, keys, p.manifest.targetImageInfo, used + {p.index});
  }

  /** The image index at which a chain's recorded base statistics first
      disagree with the image the link is applied to. */
  function FirstMismatch(patches: seq<Patch>, cur: ImageInfo, positions: seq<nat>): Option<u32>
    decreases |positions|
  {
    if |positions| == 0 || positions[0] >= |patches| then None
    else
      var p := patches[positions[0]];
      if p.manifest.baseImageInfo != cur then Some(cur.index)
      else FirstMismatch(patches, p.manifest.targetImageInfo, positions[1..])
  }

  /** A chain of in-range links has no mismatch exactly when it is checked. */
  lemma {:induction false} FirstMismatchChecked(patches: seq<Patch>, cur: ImageInfo, positions: seq<nat>)
    requires forall k :: 0 <= k < |positions| ==> positions[k] < |patches|
    ensures FirstMismatch(patches, cur, positions).None? <==> Checked(patches, cur, positions)
    decreases |positions|
  {
    if |positions| > 0 {
      var p := patches[positions[0]];
      assert forall k :: 0 <= k < |positions[1..]| ==> positions[1..][k] == positions[k + 1];
      FirstMismatchChecked(patches, p.manifest.targetImageInfo, positions[1..]);
    }
  }

  /** The checked matcher is the forced matcher followed by the statistics
      check along the chain: it fails, naming the current image index, at
      the first link whose base statistics differ, and otherwise returns
      the forced chain. */
  lemma {:induction false} GrowChainChecked(guid: string, patches: seq<Patch>, keys: seq<Version>, cur: ImageInfo, used: set<u32>)
    requires |keys| == |patches|
    ensures GrowChain(guid, patches, keys, true, cur, used).Success?
    ensures var forced := GrowChain(guid, patches, keys, true, cur, used).value;
      GrowChain(guid, patches, keys, false, cur, used) ==
        match FirstMismatch(patches, cur, forced.positions)
        case None => Success(forced)
        case Some(i) => Failure(BaseNotMatch(i))
    decreases IndexSet(patches) - used
  {
    GrowChainForce(guid, patches, keys, cur, used);
    match Pick(guid, cur, used, patches, keys)
    case None =>
    case Some(pos) =>
      var p := patches[pos];
      assert p.index in IndexSet(patches) - used;
      var next := p.manifest.targetImageInfo;
      GrowChainChecked(guid, patches, keys, next, used + {p.index});
      var rest := GrowChain(guid, patches, keys, true, next, used + {p.index}).value;
      var forced := GrowChain(guid, patches, keys, true, cur, used).value;
      assert forced.positions == [pos] + rest.positions;
      assert forced.positions[1..] == rest.positions;
  }

  /** The outer loop over the base images, threading the used indices;
      empty chains are dropped. */
  function MatchFrom(guid: string, bases: seq<ImageInfo>, patches: seq<Patch>, keys: seq<Version>, force: bool, used: set<u32>): (r: Result<seq<Match>, ChainError>)
    requires |keys| == |patches|
    ensures r.Success? ==> forall i :: 0 <= i < |r.value| ==> |r.value[i].chain| > 0
    ensures r.Failure? ==> !force
    decreases |bases|
  {
    if |bases| == 0 then Success([])
    else
      match GrowChain(guid, patches, keys, force, bases[0], used)
      case Failure(e) => Failure(e)
      case Success(c) =>
        match MatchFrom(guid, bases[1..], patches, keys, force, c.used)
        case Failure(e) => Failure(e)
        case Success(rest) =>
          if |c.positions| == 0 then Success(rest)
          else Success([Match(c.final, LinksOf(patches, c.positions))] + rest)
  }

  /** Every chained patch comes from the patch list, was not used before and
      has the input WIM's GUID as its base GUID; no index is chained twice. */
  lemma {:induction false} MatchFromFresh(guid: string, bases: seq<ImageInfo>, patches: seq<Patch>, keys: seq<Version>, force: bool, used: set<u32>)
    requires |keys| == |patches|
    requires MatchFrom(guid, bases, patches, keys, force, used).Success?
    ensures var ms := MatchFrom(guid, bases, patches, keys, force, used).value;
      && (forall i, k :: 0 <= i < |ms| && 0 <= k < |ms[i].chain| ==>
            ms[i].chain[k] in patches && ms[i].chain[k].index !in used && ms[i].chain[k].manifest.baseImageGuid == guid)
      && DistinctIndices(ms)
    decreases |bases|
  {
    if |bases| > 0 {
      var c := GrowChain(guid, patches, keys, force, bases[0], used).value;
      GrowChainFresh(guid, patches, keys, force, bases[0], used);
      MatchFromFresh(guid, bases[1..], patches, keys, force, c.used);
      var rest := MatchFrom(guid, bases[1..], patches, keys, force, c.used).value;
      if |c.positions| > 0 {
        var m := Match(c.final, LinksOf(patches, c.positions));
        DistinctPrepend(m, rest);
        var ms := [m] + rest;
        forall i, k | 0 <= i < |ms| && 0 <= k < |ms[i].chain|
          ensures ms[i].chain[k] in patches && ms[i].chain[k].index !in used && ms[i].chain[k].manifest.baseImageGuid == guid
        {
          if i > 0 { assert ms[i] == rest[i - 1]; }
        }
      }
    }
  }

  /** The links of one grown chain: drawn from the patch list, fresh,
      distinct, recorded in the chain's used set, and of the input GUID. */
  lemma {:induction false} GrowChainFresh(guid: string, patches: seq<Patch>, keys: seq<Version>, force: bool, cur: ImageInfo, used: set<u32>)
    requires |keys| == |patches|
    requires GrowChain(guid, patches, keys, force, cur, used).Success?
    ensures var c := GrowChain(guid, patches, keys, force, cur, used).value;
      var chain := LinksOf(patches, c.positions);
      && used <= c.used
      && (forall k :: 0 <= k < |chain| ==>
            chain[k] in patches && chain[k].index !in used && chain[k].index in c.used && chain[k].manifest.baseImageGuid == guid)
      && (forall k, l :: 0 <= k < l < |chain| ==> chain[k].index != chain[l].index)
  {
    var c := GrowChain(guid, patches, keys, force, cur, used).value;
    GrowChainSound(guid, patches, keys, force, cur, used);
    ChainIndicesFresh(guid, patches, keys, cur, used, c.positions, c.final, c.used);
    LinksIndexed(guid, patches, keys, cur, used, c.positions, c.final, c.used);
  }

  /** A match is a connected chain: each link starts at the image index the
      previous link produced, and the match's final statistics are the
      last link's target statistics. */
  ghost predicate Connected(m: Match) {
    && |m.chain| > 0
    && (forall k :: 0 <= k < |m.chain| - 1 ==>
          m.chain[k + 1].manifest.baseImageInfo.index == m.chain[k].manifest.targetImageInfo.index)
    && m.final == m.chain[|m.chain| - 1].manifest.targetImageInfo
  }

  /** Without force, each link's recorded base statistics are exactly the
      previous link's target statistics. */
  ghost predicate StatsChained(m: Match) {
    forall k :: 0 <= k < |m.chain| - 1 ==> m.chain[k + 1].manifest.baseImageInfo == m.chain[k].manifest.targetImageInfo
  }

  /** The image indices of the base WIM. */
  function BaseIndices(bases: seq<ImageInfo>): set<u32> {
    set b | b in bases :: b.index
  }

  /** Putting a link in front of a connected chain whose first link starts
      at the link's target index keeps it connected. */
  lemma ConnectedCons(p: Patch, tail: seq<Patch>, final: ImageInfo)
    requires |tail| == 0 ==> final == p.manifest.targetImageInfo
    requires |tail| > 0 ==> Connected(Match(final, tail)) && tail[0].manifest.baseImageInfo.index == p.manifest.targetImageInfo.index
    ensures Connected(Match(final, [p] + tail))
  {
    var chain := [p] + tail;
    forall k | 0 <= k < |chain| - 1
      ensures chain[k + 1].manifest.baseImageInfo.index == chain[k].manifest.targetImageInfo.index
    {
      if k > 0 { assert chain[k] == tail[k - 1]; }
    }
  }

  /** The same for exactly chained statistics. */
  lemma StatsChainedCons(p: Patch, tail: seq<Patch>, final: ImageInfo)
    requires StatsChained(Match(final, tail))
    requires |tail| > 0 ==> tail[0].manifest.baseImageInfo == p.manifest.targetImageInfo
    ensures StatsChained(Match(final, [p] + tail))
  {
    var chain := [p] + tail;
    forall k | 0 <= k < |chain| - 1
      ensures chain[k + 1].manifest.baseImageInfo == chain[k].manifest.targetImageInfo
    {
      if k > 0 { assert chain[k] == tail[k - 1]; }
    }
  }

  /** A match grown from the image `cur`: empty only when it ends at `cur`,
      otherwise connected and starting at `cur`'s index; without force its
      statistics chain exactly from `cur` on. */
  ghost predicate GrownFrom(m: Match, cur: ImageInfo, force: bool) {
    && (|m.chain| == 0 ==> m.final == cur)
    && (|m.chain| > 0 ==> Connected(m) && m.chain[0].manifest.baseImageInfo.index == cur.index)
    && (!force ==> StatsChained(m) && (|m.chain| > 0 ==> m.chain[0].manifest.baseImageInfo == cur))
  }

  /** One step of growing: a link applied to `cur` in front of a match
      grown from its target is a match grown from `cur`. */
  lemma GrownFromCons(p: Patch, tail: seq<Patch>, final: ImageInfo, cur: ImageInfo, force: bool)
    requires GrownFrom(Match(final, tail), p.manifest.targetImageInfo, force)
    requires p.manifest.baseImageInfo.index == cur.index
    requires !force ==> p.manifest.baseImageInfo == cur
    ensures GrownFrom(Match(final, [p] + tail), cur, force)
  {
    ConnectedCons(p, tail, final);
    if !force {
      StatsChainedCons(p, tail, final);
    }
  }

  /** One grown chain starts at the index of the image it was grown from,
      continues link to link by image index, and ends at its last link's
      target; without force the statistics chain exactly as well. */
  lemma {:induction false} GrowChainConnected(guid: string, patches: seq<Patch>, keys: seq<Version>, force: bool, cur: ImageInfo, used: set<u32>)
    requires |keys| == |patches|
    requires GrowChain(guid, patches, keys, force, cur, used).Success?
    ensures var c := GrowChain(guid, patches, keys, force, cur, used).value;
      GrownFrom(Match(c.final, LinksOf(patches, c.positions)), cur, force)
    decreases IndexSet(patches) - used
  {
    match Pick(guid, cur, used, patches, keys)
    case None =>
    case Some(pos) =>
      var p := patches[pos];
      assert p.index in IndexSet(patches) - used;
      var next := p.manifest.targetImageInfo;
      GrowChainConnected(guid, patches, keys, force, next, used + {p.index});
      var rest := GrowChain(guid, patches, keys, force, next, used + {p.index}).value;
      var c := GrowChain(guid, patches, keys, force, cur, used).value;
      assert c == Chain([pos] + rest.positions, rest.final, rest.used);
      var tail := LinksOf(patches, rest.positions);
      assert LinksOf(patches, c.positions) == [p] + tail;
      GrownFromCons(p, tail, rest.final, cur, force);
  }

  /** A match grown from one of `bases`: connected, starting at the index
      of a base image and, without force, with statistics chained exactly
      from that base image on. */
  ghost predicate FromBase(m: Match, bases: seq<ImageInfo>, force: bool) {
    && Connected(m)
    && m.chain[0].manifest.baseImageInfo.index in BaseIndices(bases)
    && (!force ==> StatsChained(m) && m.chain[0].manifest.baseImageInfo in bases)
  }

  /** Matches grown from the later base images are grown from the whole
      list of base images. */
  lemma FromBaseWider(ms: seq<Match>, bases: seq<ImageInfo>, force: bool)
    requires |bases| > 0
    requires forall i :: 0 <= i < |ms| ==> FromBase(ms[i], bases[1..], force)
    ensures forall i :: 0 <= i < |ms| ==> FromBase(ms[i], bases, force)
  {
    forall i | 0 <= i < |ms| ensures FromBase(ms[i], bases, force) {
      var b :| b in bases[1..] && b.index == ms[i].chain[0].manifest.baseImageInfo.index;
      assert b in bases;
    }
  }

  lemma FromBaseCons(m: Match, rest: seq<Match>, bases: seq<ImageInfo>, force: bool)
    requires FromBase(m, bases, force)
    requires forall i :: 0 <= i < |rest| ==> FromBase(rest[i], bases, force)
    ensures forall i :: 0 <= i < |[m] + rest| ==> FromBase(([m] + rest)[i], bases, force)
  {
    forall i | 0 <= i < |[m] + rest| ensures FromBase(([m] + rest)[i], bases, force) {
      if i > 0 { assert ([m] + rest)[i] == rest[i - 1]; }
    }
  }

  /** Every match of the outer loop is grown from one of its base images. */
  lemma {:induction false} MatchFromConnected(guid: string, bases: seq<ImageInfo>, patches: seq<Patch>, keys: seq<Version>, force: bool, used: set<u32>)
    requires |keys| == |patches|
    requires MatchFrom(guid, bases, patches, keys, force, used).Success?
    ensures var ms := MatchFrom(guid, bases, patches, keys, force, used).value;
      forall i :: 0 <= i < |ms| ==> FromBase(ms[i], bases, force)
    decreases |bases|
  {
    if |bases| > 0 {
      var c := GrowChain(guid, patches, keys, force, bases[0], used).value;
      GrowChainConnected(guid, patches, keys, force, bases[0], used);
      MatchFromConnected(guid, bases[1..], patches, keys, force, c.used);
      var rest := MatchFrom(guid, bases[1..], patches, keys, force, c.used).value;
      FromBaseWider(rest, bases, force);
      if |c.positions| > 0 {
        var m := Match(c.final, LinksOf(patches, c.positions));
        assert bases[0].index in BaseIndices(bases);
        FromBaseCons(m, rest, bases, force);
      }
    }
  }

  /** `match_patch`'s result, chain by chain: every returned chain starts
      at the index of a base image, each link starts at the image index
      the previous link produced, and the final statistics reported with
      the chain are the last link's target statistics. Without force, the
      recorded statistics chain exactly, from a base image on. */
  lemma MatchPatchConnected(guid: string, bases: seq<ImageInfo>, patches: seq<Patch>, force: bool)
    requires MatchPatch(guid, bases, patches, force).Success?
    ensures var ms := MatchPatch(guid, bases, patches, force).value;
      forall i :: 0 <= i < |ms| ==>
        && Connected(ms[i])
        && ms[i].chain[0].manifest.baseImageInfo.index in BaseIndices(bases)
        && (!force ==> StatsChained(ms[i]) && ms[i].chain[0].manifest.baseImageInfo in bases)
  {
    MatchFromConnected(guid, bases, patches, Keys(patches), force, {});
  }

  /** Every patch index occurs in at most one chain, and at most once in it. */
  ghost predicate DistinctIndices(ms: seq<Match>) {
    && (forall i, k, l :: 0 <= i < |ms| && 0 <= k < l < |ms[i].chain| ==> ms[i].chain[k].index != ms[i].chain[l].index)
    && (forall i, j, k, l :: 0 <= i < j < |ms| && 0 <= k < |ms[i].chain| && 0 <= l < |ms[j].chain| ==>
          ms[i].chain[k].index != ms[j].chain[l].index)
  }

  lemma DistinctPrepend(m: Match, rest: seq<Match>)
    requires forall k, l :: 0 <= k < l < |m.chain| ==> m.chain[k].index != m.chain[l].index
    requires DistinctIndices(rest)
    requires forall j, k, l :: 0 <= j < |rest| && 0 <= k < |m.chain| && 0 <= l < |rest[j].chain| ==>
               m.chain[k].index != rest[j].chain[l].index
    ensures DistinctIndices([m] + rest)
  {
    var ms := [m] + rest;
    forall i, j, k, l | 0 <= i < j < |ms| && 0 <= k < |ms[i].chain| && 0 <= l < |ms[j].chain|
      ensures ms[i].chain[k].index != ms[j].chain[l].index
    {
      assert ms[j] == rest[j - 1];
      if i > 0 { assert ms[i] == rest[i - 1]; }
    }
    forall i, k, l | 0 <= i < |ms| && 0 <= k < l < |ms[i].chain|
      ensures ms[i].chain[k].index != ms[i].chain[l].index
    {
      if i > 0 { assert ms[i] == rest[i - 1]; }
    }
  }

  /** The sort keys of the patch list; a version that does not parse sorts
      as 0.0.0. */
  function Keys(patches: seq<Patch>): (r: seq<Version>)
    ensures |r| == |patches|
    ensures forall i :: 0 <= i < |patches| ==>
      (Parse(patches[i].manifest.patchVersion).Some? ==> r[i] == Parse(patches[i].manifest.patchVersion).value)
    ensures forall i :: 0 <= i < |patches| ==>
      (Parse(patches[i].manifest.patchVersion).None? ==> r[i] == Zero)
  {
    seq(|patches|, i requires 0 <= i < |patches| => ParseOrZero(patches[i].manifest.patchVersion))
  }

  /** `match_patch`. */
  function MatchPatch(guid: string, bases: seq<ImageInfo>, patches: seq<Patch>, force: bool): (r: Result<seq<Match>, ChainError>)
    ensures r.Success? ==> forall i :: 0 <= i < |r.value| ==> |r.value[i].chain| > 0
    ensures r.Success? ==> forall i, k :: 0 <= i < |r.value| && 0 <= k < |r.value[i].chain| ==>
              r.value[i].chain[k] in patches && r.value[i].chain[k].manifest.baseImageGuid == guid
    ensures r.Success? ==> DistinctIndices(r.value)
    ensures r.Failure? ==> !force
  {
    var keys := Keys(patches);
    var r := MatchFrom(guid, bases, patches, keys, force, {});
    if r.Success? then MatchFromFresh(guid, bases, patches, keys, force, {}); r else r
  }

  /** The forced matcher never fails, and a checked success is the forced
      result. */
  lemma {:induction false} MatchFromForce(guid: string, bases: seq<ImageInfo>, patches: seq<Patch>, keys: seq<Version>, used: set<u32>)
    requires |keys| == |patches|
    ensures MatchFrom(guid, bases, patches, keys, true, used).Success?
    ensures MatchFrom(guid, bases, patches, keys, false, used).Success? ==>
              MatchFrom(guid, bases, patches, keys, false, used) == MatchFrom(guid, bases, patches, keys, true, used)
    decreases |bases|
  {
    if |bases| > 0 {
      GrowChainForce(guid, patches, keys, bases[0], used);
      var c := GrowChain(guid, patches, keys, true, bases[0], used).value;
      MatchFromForce(guid, bases[1..], patches, keys, c.used);
    }
  }

  lemma MatchPatchForce(guid: string, bases: seq<ImageInfo>, patches: seq<Patch>)
    ensures MatchPatch(guid, bases, patches, true).Success?
    ensures MatchPatch(guid, bases, patches, false).Success? ==>
              MatchPatch(guid, bases, patches, false) == MatchPatch(guid, bases, patches, true)
  {
    MatchFromForce(guid, bases, patches, Keys(patches), {});
  }
}

=== FILE: patchcommands.dfy ===
/** The selection and bookkeeping around the patch commands: which image
    pairs `create_patch` diffs, which chains `apply_patch` applies to which
    base image, the operation counts `get_patch_info` shows, and the image
    list `merge_patches` writes. */
module PatchCommands {
  import opened Wrappers
  import opened Manifest
  import opened PatchChain

  // ---------------------------------------------------------------------
  // create_patch: image pairs
  // ---------------------------------------------------------------------

  /** An explicitly requested index lies beyond an image count; the error
      names the base index whichever of the two was out of range. */
  datatype PairError = IndexOutOfRange(index: u32)

  function Min(a: u32, b: u32): u32 {
    if a <= b then a else b
  }

  /** The (base, target) index pairs `create_patch` builds patch images
      for: the one requested pair when both indices are given, otherwise
      1-1, 2-2, ... up to the smaller image count. */
  function PairIndices(baseIndex: Option<u32>, targetIndex: Option<u32>, baseCount: u32, targetCount: u32): (r: Result<seq<(u32, u32)>, PairError>)
    ensures baseIndex.Some? && targetIndex.Some? ==>
              (r.Failure? <==> baseIndex.value > baseCount || targetIndex.value > targetCount)
    ensures r.Failure? ==> baseIndex.Some? && r.error == IndexOutOfRange(baseIndex.value)
    ensures r.Success? && baseIndex.Some? && targetIndex.Some? ==> r.value == [(baseIndex.value, targetIndex.value)]
    ensures r.Success? ==> forall k :: 0 <= k < |r.value| ==> r.value[k].0 <= baseCount && r.value[k].1 <= targetCount
  {
    if baseIndex.Some? && targetIndex.Some? then
      if baseIndex.value > baseCount || targetIndex.value > targetCount then Failure(IndexOutOfRange(baseIndex.value))
      else Success([(baseIndex.value, targetIndex.value)])
    else
      Success(seq(Min(baseCount, targetCount), k requires 0 <= k < Min(baseCount, targetCount) => (k + 1, k + 1)))
  }

  /** Without an explicit pair, every index from 1 up to both image counts
      is paired with itself, once and in ascending order. */
  lemma PairIndicesDefault(baseIndex: Option<u32>, targetIndex: Option<u32>, baseCount: u32, targetCount: u32)
    requires !(baseIndex.Some? && targetIndex.Some?)
    ensures PairIndices(baseIndex, targetIndex, baseCount, targetCount).Success?
    ensures var ps := PairIndices(baseIndex, targetIndex, baseCount, targetCount).value;
      && (forall i: u32 :: 1 <= i <= baseCount && i <= targetCount ==> (i, i) in ps)
      && (forall k :: 0 <= k < |ps| ==> 1 <= ps[k].0 && ps[k].0 == ps[k].1)
      && (forall k, l :: 0 <= k < l < |ps| ==> ps[k].0 < ps[l].0)
  {
    var ps := PairIndices(baseIndex, targetIndex, baseCount, targetCount).value;
    forall i: u32 | 1 <= i <= baseCount && i <= targetCount
      ensures (i, i) in ps
    {
      assert ps[i - 1] == (i, i);
    }
  }

  /** An explicit pair is only checked against the upper bounds: index 0
      passes the check and is handed on to the image loader. */
  lemma PairIndicesZero(baseCount: u32, targetCount: u32)
    ensures PairIndices(Some(0), Some(0), baseCount, targetCount) == Success([(0, 0)])
  {
  }

  // ---------------------------------------------------------------------
  // apply_patch: which chains are applied to which base image
  // ---------------------------------------------------------------------

  datatype ApplyError =
    | MatchFailed(cause: ChainError)
    | NotMatch
    | BaseIndexNotFound(index: u32)

  /** One `apply_patch_image` call: the base image index and the chain of
      patch images replayed on it. */
  datatype Job = Job(index: u32, chain: seq<Patch>)

  /** The chains of the matches whose final target index is `b`. */
  function ChainsEndingAt(ms: seq<Match>, b: u32): set<seq<Patch>> {
    set m | m in ms && m.final.index == b :: m.chain
  }

  /** The matches whose final target index is `b`, as jobs on image `b`. */
  function JobsAt(ms: seq<Match>, b: u32): (r: seq<Job>)
    ensures |r| <= |ms|
    ensures forall j :: 0 <= j < |r| ==> r[j].index == b && r[j].chain in ChainsEndingAt(ms, b)
    ensures forall m :: m in ms && m.final.index == b ==> Job(b, m.chain) in r
  {
    if |ms| == 0 then []
    else
      var rest := JobsAt(ms[1..], b);
      assert forall m :: m in ms <==> m == ms[0] || m in ms[1..];
      assert ChainsEndingAt(ms[1..], b) <= ChainsEndingAt(ms, b);
      if ms[0].final.index == b then [Job(b, ms[0].chain)] + rest else rest
  }

  /** Every match as a job on the image with its final target index. */
  function JobsAll(ms: seq<Match>): (r: seq<Job>)
    ensures |r| == |ms|
    ensures forall j :: 0 <= j < |r| ==> r[j].index == ms[j].final.index && r[j].chain == ms[j].chain
  {
    seq(|ms|, j requires 0 <= j < |ms| => Job(ms[j].final.index, ms[j].chain))
  }

  /** The decisions of `apply_patch` between matching and replaying: a
      failed match and an empty match are errors; a requested base index
      must name an image of the base WIM and selects the matches whose
      final target index is that index; without one every match is applied
      to the image with its final target index. */
  function PlanApply(guid: string, bases: seq<ImageInfo>, patches: seq<Patch>, force: bool, baseIndex: Option<u32>): (r: Result<seq<Job>, ApplyError>)
    ensures MatchPatch(guid, bases, patches, force).Failure? ==>
              r == Failure(MatchFailed(MatchPatch(guid, bases, patches, force).error))
    ensures r == Failure(NotMatch) <==> MatchPatch(guid, bases, patches, force) == Success([])
    ensures r.Failure? && r.error.BaseIndexNotFound? ==>
              baseIndex == Some(r.error.index) && forall i :: 0 <= i < |bases| ==> bases[i].index != r.error.index
    ensures r.Success? && baseIndex.Some? ==>
              (exists i :: 0 <= i < |bases| && bases[i].index == baseIndex.value)
    ensures r.Success? && baseIndex.None? ==> |r.value| > 0
    ensures r.Success? ==> forall j :: 0 <= j < |r.value| ==> |r.value[j].chain| > 0
  {
    match MatchPatch(guid, bases, patches, force)
    case Failure(e) => Failure(MatchFailed(e))
    case Success(ms) =>
      if |ms| == 0 then Failure(NotMatch)
      else
        match baseIndex
        case Some(b) =>
          if forall i :: 0 <= i < |bases| ==> bases[i].index != b then Failure(BaseIndexNotFound(b))
          else
            var jobs := JobsAt(ms, b);
            assert forall j :: 0 <= j < |jobs| ==> |jobs[j].chain| > 0 by {
              forall j | 0 <= j < |jobs| ensures |jobs[j].chain| > 0 {
                assert jobs[j].chain in ChainsEndingAt(ms, b);
              }
            }
            Success(jobs)
        case None => Success(JobsAll(ms))
  }

  /** With force the matcher cannot fail, so the only errors left are an
      empty match and an unknown base index. */
  lemma PlanApplyForce(guid: string, bases: seq<ImageInfo>, patches: seq<Patch>, baseIndex: Option<u32>)
    ensures !(PlanApply(guid, bases, patches, true, baseIndex).Failure? &&
              PlanApply(guid, bases, patches, true, baseIndex).error.MatchFailed?)
  {
    MatchPatchForce(guid, bases, patches);
  }

  /** Two different matches never share a chain: their first links have
      different patch indices. */
  lemma DifferentChains(ms: seq<Match>, i: int, j: int)
    requires DistinctIndices(ms)
    requires forall k :: 0 <= k < |ms| ==> |ms[k].chain| > 0
    requires 0 <= i < |ms| && 0 <= j < |ms| && i != j
    ensures ms[i].chain != ms[j].chain
  {
    if i < j {
      assert ms[i].chain[0].index != ms[j].chain[0].index;
    } else {
      assert ms[j].chain[0].index != ms[i].chain[0].index;
    }
  }

  /** With a requested base index `b`, a chain is applied to image `b`
      exactly when the image it ENDS at has index `b`: a chain that starts
      at image `b` but moves to another index is not applied to `b`. */
  lemma SelectsByFinalIndex(guid: string, bases: seq<ImageInfo>, patches: seq<Patch>, force: bool, b: u32, m: Match)
    requires MatchPatch(guid, bases, patches, force).Success?
    requires m in MatchPatch(guid, bases, patches, force).value
    requires PlanApply(guid, bases, patches, force, Some(b)).Success?
    ensures Job(b, m.chain) in PlanApply(guid, bases, patches, force, Some(b)).value <==> m.final.index == b
    ensures forall j :: 0 <= j < |PlanApply(guid, bases, patches, force, Some(b)).value| ==>
              PlanApply(guid, bases, patches, force, Some(b)).value[j].index == b
  {
    var ms := MatchPatch(guid, bases, patches, force).value;
    var jobs := PlanApply(guid, bases, patches, force, Some(b)).value;
    assert jobs == JobsAt(ms, b);
    if Job(b, m.chain) in jobs {
      var m' :| m' in ms && m'.final.index == b && m'.chain == m.chain;
      var i :| 0 <= i < |ms| && ms[i] == m;
      var i' :| 0 <= i' < |ms| && ms[i'] == m';
      if i != i' {
        DifferentChains(ms, i, i');
        assert false;
      }
    }
  }

  /** Without a requested index every match is applied, in match order, to
      the image its chain ends at. */
  lemma AppliesAllMatches(guid: string, bases: seq<ImageInfo>, patches: seq<Patch>, force: bool)
    requires MatchPatch(guid, bases, patches, force).Success?
    requires |MatchPatch(guid, bases, patches, force).value| > 0
    ensures var ms := MatchPatch(guid, bases, patches, force).value;
      var r := PlanApply(guid, bases, patches, force, None);
      && r.Success? && |r.value| == |ms|
      && forall j :: 0 <= j < |ms| ==> r.value[j] == Job(ms[j].final.index, ms[j].chain)
  {
  }

  // ---------------------------------------------------------------------
  // get_patch_info: operation counts
  // ---------------------------------------------------------------------

  /** The number of operations with action `a`. */
  function Count(ops: seq<Operation>, a: Action): (n: nat)
    ensures n <= |ops|
    ensures n == 0 <==> forall i :: 0 <= i < |ops| ==> ops[i].action != a
    ensures n == |ops| <==> forall i :: 0 <= i < |ops| ==> ops[i].action == a
  {
    if |ops| == 0 then 0
    else
      var rest := Count(ops[1..], a);
      assert forall i :: 1 <= i < |ops| ==> ops[i] == ops[1..][i - 1];
      (if ops[0].action == a then 1 else 0) + rest
  }

  /** Counting distributes over concatenation. */
  lemma {:induction false} CountAppend(xs: seq<Operation>, ys: seq<Operation>, a: Action)
    ensures Count(xs + ys, a) == Count(xs, a) + Count(ys, a)
  {
    if |xs| > 0 {
      assert (xs + ys)[1..] == xs[1..] + ys;
      CountAppend(xs[1..], ys, a);
    } else {
      assert xs + ys == ys;
    }
  }

  /** Every operation is exactly one of Add, Modify and Delete, so the three
      counts add up to the total. */
  lemma {:induction false} CountsSum(ops: seq<Operation>)
    ensures Count(ops, Add) + Count(ops, Modify) + Count(ops, Delete) == |ops|
  {
    if |ops| > 0 {
      CountsSum(ops[1..]);
    }
  }

  // ---------------------------------------------------------------------
  // merge_patches and the image listing of apply_patch
  // ---------------------------------------------------------------------

  /** The number of images of all patch files together. */
  function TotalImages(files: seq<seq<PatchManifest>>): nat {
    if |files| == 0 then 0 else |files[0]| + TotalImages(files[1..])
  }

  /** `merge_patches`: every image of every input file, exported in
      argument order and, within a file, in index order. */
  function Merge(files: seq<seq<PatchManifest>>): (r: seq<PatchManifest>)
    ensures |r| == TotalImages(files)
    ensures forall k :: 0 <= k < |r| ==> exists i :: 0 <= i < |files| && r[k] in files[i]
  {
    if |files| == 0 then []
    else
      var rest := Merge(files[1..]);
      assert forall k :: 0 <= k < |rest| ==> exists i :: 0 <= i < |files| && rest[k] in files[i] by {
        forall k | 0 <= k < |rest| ensures exists i :: 0 <= i < |files| && rest[k] in files[i] {
          var i :| 0 <= i < |files[1..]| && rest[k] in files[1..][i];
          assert files[1..][i] == files[i + 1];
        }
      }
      files[0] + rest
  }

  /** Image `j` of input file `i` lands right after all images of the
      earlier files. */
  lemma {:induction false} MergeAt(files: seq<seq<PatchManifest>>, i: nat, j: nat)
    requires i < |files| && j < |files[i]|
    ensures TotalImages(files[..i]) + j < |Merge(files)|
    ensures Merge(files)[TotalImages(files[..i]) + j] == files[i][j]
  {
    if i == 0 {
      assert files[..0] == [];
    } else {
      MergeAt(files[1..], i - 1, j);
      assert files[1..][..i - 1] == files[..i][1..];
      assert files[..i][0] == files[0];
    }
  }

  /** Merging two groups of files merges each group and appends. */
  lemma {:induction false} MergeAppend(xs: seq<seq<PatchManifest>>, ys: seq<seq<PatchManifest>>)
    ensures Merge(xs + ys) == Merge(xs) + Merge(ys)
  {
    if |xs| > 0 {
      assert (xs + ys)[1..] == xs[1..] + ys;
      MergeAppend(xs[1..], ys);
    } else {
      assert xs + ys == ys;
    }
  }

  /** The compression of a merged patch file, as the command line names it
      (`NoCompress` is the command line's `None`). */
  datatype Compress = NoCompress | Xpress | Lzx

  /** The WIM compression flag `merge_patches` opens its output with:
      WIM_COMPRESS_NONE, WIM_COMPRESS_XPRESS or WIM_COMPRESS_LZX. */
  function CompressFlag(c: Compress): (f: u32)
    ensures f <= 2
    ensures f == 0 <==> c == NoCompress
  {
    match c
    case NoCompress => 0
    case Xpress => 1
    case Lzx => 2
  }

  /** The command-line choice behind a WIM compression flag, if any. */
  function CompressOfFlag(f: u32): (r: Option<Compress>)
    ensures r.Some? <==> f <= 2
  {
    if f == 0 then Some(NoCompress) else if f == 1 then Some(Xpress) else if f == 2 then Some(Lzx) else None
  }

  /** Each choice gets its own flag, and the flag gives the choice back. */
  lemma CompressFlagRoundTrip(c: Compress, f: u32)
    ensures CompressOfFlag(CompressFlag(c)) == Some(c)
    ensures CompressOfFlag(f) == Some(c) <==> CompressFlag(c) == f
  {
  }

  /** The patch list `apply_patch` reads from a patch file: image `k`
      (counted from 1) with its manifest. */
  function ListPatches(images: seq<PatchManifest>): (r: seq<Patch>)
    requires |images| < 0x1_0000_0000
    ensures |r| == |images|
    ensures forall k :: 0 <= k < |r| ==> r[k].manifest == images[k]
    ensures forall k, l :: 0 <= k < l < |r| ==> r[k].index < r[l].index
    ensures forall k :: 0 <= k < |r| ==> 1 <= r[k].index <= |images|
  {
    seq(|images|, k requires 0 <= k < |images| => Patch(k + 1, images[k]))
  }
}

=== FILE: patchops.dfy ===
/** The file-level core of the patch engine: `create_operations`, which
    turns the comparator's events into the operation list of a manifest and
    stages the payload files in the patch directory, and
    `apply_operations`, which replays an operation list on a mounted base
    image, reading payloads from the mounted patch image.

    The zstd and bsdiff codecs are foreign code and stay uninterpreted: a
    `Codecs` value supplies them. Nothing here assumes that decoding undoes
    encoding. */
module PatchOps {
  import opened Wrappers
  import opened Manifest
  import opened Fs
  import opened Text
  import opened DirCompare

  // ---------------------------------------------------------------------
  // Settings
  // ---------------------------------------------------------------------

  /** How the new content of a modified file is stored in the patch. */
  datatype Storage = Full | Zstd | Bsdiff

  /** The zstd effort setting. */
  datatype Preset = Fast | Medium | Best | Extreme

  /** The zstd compression level of a preset. */
  function Level(preset: Preset): int {
    match preset
    case Fast => 3
    case Medium => 9
    case Best => 19
    case Extreme => 22
  }

  /** Every preset names a valid zstd level (1 to 22), and a slower preset
      never compresses less. */
  lemma LevelsOrdered()
    ensures forall p: Preset :: 1 <= Level(p) <= 22
    ensures Level(Fast) < Level(Medium) < Level(Best) < Level(Extreme)
    ensures Level(Extreme) == 22
  {
  }

  /** The storage tag written into a Modify operation. */
  function Tag(s: Storage): string {
    match s
    case Full => "full"
    case Zstd => "zstd"
    case Bsdiff => "bsdiff"
  }

  /** How apply reads a storage tag: lower-cased, then one of the three
      names; anything else is no storage at all. For these three names the
      Unicode lower-casing of the source and ASCII lower-casing agree: no
      non-ASCII character lower-cases into a letter of "full", "zstd" or
      "bsdiff". */
  function StorageOfTag(tag: string): (r: Option<Storage>)
    ensures r.Some? <==> ToAsciiLower(tag) in {"full", "zstd", "bsdiff"}
  {
    var l := ToAsciiLower(tag);
    if l == "full" then Some(Full)
    else if l == "zstd" then Some(Zstd)
    else if l == "bsdiff" then Some(Bsdiff)
    else None
  }

  /** Lower-casing leaves a lower-case ASCII word alone. */
  lemma LowerOfLower(s: string)
    requires forall i :: 0 <= i < |s| ==> 'a' <= s[i] <= 'z'
    ensures ToAsciiLower(s) == s
  {
  }

  /** The tag create writes is read back as the same storage, and a tag is
      read as storage `s` exactly when it lower-cases to `s`'s tag. */
  lemma TagRoundTrip(s: Storage, tag: string)
    ensures StorageOfTag(Tag(s)) == Some(s)
    ensures StorageOfTag(tag) == Some(s) <==> ToAsciiLower(tag) == Tag(s)
  {
    LowerOfLower(Tag(s));
  }

  /** The exclusion test of both create and apply: some exclude item occurs
      in the path, ignoring ASCII case. No items exclude nothing; an empty
      item excludes everything. */
  predicate Excluded(path: Path, exclude: seq<string>)
    ensures exclude == [] ==> !Excluded(path, exclude)
    ensures "" in exclude ==> Excluded(path, exclude)
  {
    assert forall i :: 0 <= i < |exclude| && exclude[i] == "" ==>
      OccursAt(ToAsciiLower(path), ToAsciiLower(exclude[i]), 0);
    exists i :: 0 <= i < |exclude| && ContainsIgnoreAsciiCase(path, exclude[i])
  }

  /** The test matches substrings, so a path that extends an excluded one
      is excluded too: excluding a directory excludes everything below it. */
  lemma ExcludedExtends(path: Path, more: string, exclude: seq<string>)
    requires Excluded(path, exclude)
    ensures Excluded(path + more, exclude)
  {
    var i :| 0 <= i < |exclude| && ContainsIgnoreAsciiCase(path, exclude[i]);
    var lp, pat := ToAsciiLower(path), ToAsciiLower(exclude[i]);
    var j :| 0 <= j <= |lp| - |pat| && OccursAt(lp, pat, j);
    var lq := ToAsciiLower(path + more);
    forall k | 0 <= k < |pat| ensures pat[k] == lq[j + k] {
      CharOfOccurrence(lp, pat, j, k);
    }
    assert OccursAt(lq, pat, j);
    assert ContainsIgnoreAsciiCase(path + more, exclude[i]);
  }

  /** The zstd and bsdiff codecs, as black boxes. `zstdDiff` and `bsDiff`
      give the bytes an encoding run leaves in the diff file (whatever it
      managed to write); `zstdPatch` streams into the target it has already
      truncated, so a failure leaves partial output; `bsPatch` writes only
      when it succeeds. */
  datatype ZstdOut = Decoded(data: Bytes) | Broken(partial: Bytes)

  datatype Codecs = Codecs(
    zstdDiff: (Bytes, Bytes, int) -> Bytes,
    zstdPatch: (Bytes, Bytes) -> ZstdOut,
    bsDiff: (Bytes, Bytes) -> Bytes,
    bsPatch: (Bytes, Bytes) -> Option<Bytes>)

  /** The name create gives a diff payload: the path followed by ".diff". */
  const CreateDiffSuffix: string := ".diff"

  // ---------------------------------------------------------------------
  // create_operations
  // ---------------------------------------------------------------------

  /** Which file the Full storage stages for a modified path. */
  datatype FullSource = StageOld | StageNew

  /** The action an event kind records. */
  function ActionOf(k: DiffType): Action {
    match k
    case Add => Action.Add
    case Delete => Action.Delete
    case Modify => Action.Modify
  }

  /** The operation the callback records for an event it does not exclude.
      An Add without a target entry or a Modify without both entries
      records nothing; the comparator never reports either. */
  function OperationOf(e: DiffEvent, storage: Storage): (r: Option<Operation>)
    ensures r.Some? ==> r.value.path == e.path && r.value.action == ActionOf(e.kind)
    ensures r.Some? && r.value.action == Action.Delete ==> r.value.size.None? && r.value.storage.None?
    ensures r.Some? && r.value.action == Action.Add ==> r.value.storage.None? && r.value.size.Some?
    ensures r.Some? && r.value.action == Action.Modify ==> r.value.storage == Some(Tag(storage)) && r.value.size.Some?
    ensures r.Some? && r.value.action != Action.Delete ==> e.target.Some? && r.value.size == Some(EntrySize(e.target.value))
    ensures r.None? <==> (e.kind == DiffType.Add && e.target.None?) || (e.kind == DiffType.Modify && (e.base.None? || e.target.None?))
  {
    match e.kind
    case Add =>
      if e.target.Some? then Some(Operation(Action.Add, e.path, Some(EntrySize(e.target.value)), None)) else None
    case Delete => Some(Operation(Action.Delete, e.path, None, None))
    case Modify =>
      if e.base.Some? && e.target.Some?
      then Some(Operation(Action.Modify, e.path, Some(EntrySize(e.target.value)), Some(Tag(storage))))
      else None
  }

  /** Every event carries what its kind needs: an Add its target entry, a
      Modify both entries. */
  ghost predicate Complete(events: seq<DiffEvent>) {
    forall i :: 0 <= i < |events| ==>
      && (events[i].kind == DiffType.Add ==> events[i].target.Some?)
      && (events[i].kind == DiffType.Modify ==> events[i].base.Some? && events[i].target.Some?)
  }

  /** Every Delete comes before every other event or operation. */
  ghost predicate EventsDeletesFirst(events: seq<DiffEvent>) {
    forall i, j :: 0 <= i < j < |events| && events[j].kind == DiffType.Delete ==> events[i].kind == DiffType.Delete
  }

  ghost predicate OpsDeletesFirst(ops: seq<Operation>) {
    forall i, j :: 0 <= i < j < |ops| && ops[j].action == Action.Delete ==> ops[i].action == Action.Delete
  }

  /** The operation list recorded for a run of events, in event order. */
  function Operations(events: seq<DiffEvent>, storage: Storage, exclude: seq<string>): (r: seq<Operation>)
    ensures |r| <= |events|
    ensures forall i :: 0 <= i < |r| ==> !Excluded(r[i].path, exclude)
    ensures forall i :: 0 <= i < |r| && r[i].action == Action.Delete ==> r[i].size.None? && r[i].storage.None?
    ensures forall i :: 0 <= i < |r| && r[i].action == Action.Add ==> r[i].storage.None?
    ensures forall i :: 0 <= i < |r| && r[i].action == Action.Modify ==> r[i].storage == Some(Tag(storage))
    ensures (forall i :: 0 <= i < |events| ==> events[i].kind != DiffType.Delete) ==>
              forall i :: 0 <= i < |r| ==> r[i].action != Action.Delete
  {
    if |events| == 0 then []
    else
      var rest := Operations(events[1..], storage, exclude);
      assert forall i :: 1 <= i < |events| ==> events[i] == events[1..][i - 1];
      if Excluded(events[0].path, exclude) then rest
      else
        match OperationOf(events[0], storage)
        case None => rest
        case Some(op) => [op] + rest
  }

  /** The paths of the operations with action `a`. */
  function OpPaths(ops: seq<Operation>, a: Action): set<Path> {
    if |ops| == 0 then {}
    else (if ops[0].action == a then {ops[0].path} else {}) + OpPaths(ops[1..], a)
  }

  /** The operations of one action are about exactly the paths of the
      events of the matching kind that no exclude item hits. */
  lemma {:induction false} OperationsPaths(events: seq<DiffEvent>, storage: Storage, exclude: seq<string>, k: DiffType)
    requires Complete(events)
    ensures OpPaths(Operations(events, storage, exclude), ActionOf(k)) ==
            set p | p in PathsOf(events, k) && !Excluded(p, exclude)
  {
    if |events| > 0 {
      var e := events[0];
      assert Complete(events[1..]) by {
        forall i | 0 <= i < |events[1..]| ensures events[1..][i] == events[i + 1] { }
      }
      OperationsPaths(events[1..], storage, exclude, k);
      var rest := Operations(events[1..], storage, exclude);
      if !Excluded(e.path, exclude) {
        var op := OperationOf(e, storage).value;
        assert Operations(events, storage, exclude) == [op] + rest;
        assert ([op] + rest)[1..] == rest;
        assert ActionOf(e.kind) == ActionOf(k) <==> e.kind == k;
      }
    }
  }

  /** Dropping operations keeps the Deletes in front. */
  lemma {:induction false} OperationsDeletesFirst(events: seq<DiffEvent>, storage: Storage, exclude: seq<string>)
    requires EventsDeletesFirst(events)
    ensures OpsDeletesFirst(Operations(events, storage, exclude))
  {
    if |events| > 0 {
      var rest := Operations(events[1..], storage, exclude);
      assert EventsDeletesFirst(events[1..]) by {
        forall i, j | 0 <= i < j < |events[1..]| && events[1..][j].kind == DiffType.Delete
          ensures events[1..][i].kind == DiffType.Delete
        {
          assert events[1..][i] == events[i + 1] && events[1..][j] == events[j + 1];
        }
      }
      OperationsDeletesFirst(events[1..], storage, exclude);
      if events[0].kind != DiffType.Delete {
        assert forall i :: 0 <= i < |events| ==> events[i].kind != DiffType.Delete;
      }
    }
  }

  /** A diff file written by an encoder that could read both inputs; when
      either cannot be read, or the file cannot be created, nothing is
      written (the failure is only printed). */
  function WriteDiff(t: Tree, name: Path, oldF: Entry, newF: Entry, blob: Bytes, clock: u64): (r: Tree)
    ensures r == t || (name in r && r[name].File? && r[name].info.data == blob)
    ensures forall q :: q != name ==> (q in r <==> q in t) && (q in t ==> r[q] == t[q])
  {
    if oldF.File? && oldF.info.readable && newF.File? && newF.info.readable
    then WriteFile(t, name, blob, clock).GetOr(t)
    else t
  }

  /** No directory above `p` is an existing file, so creating the
      directories above `p` succeeds. */
  predicate NoFileAbove(t: Tree, p: Path) {
    forall a | a in Ancestors(p) :: a in t ==> t[a] == Dir
  }

  /** Stages the payload of one event in the patch directory. Every failure
      here is printed and ignored. */
  function StageOne(patch: Tree, e: DiffEvent, storage: Storage, preset: Preset, codecs: Codecs,
                    side: FullSource, clock: u64): (r: Tree)
    ensures e.kind == DiffType.Delete ==> r == patch
    ensures patch.Keys <= r.Keys
    ensures (&& e.kind == DiffType.Add && e.target.Some? && e.target.value.File? && e.target.value.info.readable
             && NoFileAbove(patch, e.path) && !(e.path in patch && patch[e.path] == Dir))
            ==> e.path in r && r[e.path] == e.target.value
    ensures (&& e.kind == DiffType.Add && e.target == Some(Dir) && e.path != ""
             && NoFileAbove(patch, e.path) && !(e.path in patch && patch[e.path] != Dir))
            ==> e.path in r && r[e.path] == Dir
  {
    match e.kind
    case Add =>
      if e.target.None? then patch
      else if e.target.value.Dir? then CreateDirAll(patch, e.path).GetOr(patch)
      else
        var p1 := CreateParents(patch, e.path).GetOr(patch);
        Copy(p1, e.target, e.path).GetOr(p1)
    case Delete => patch
    case Modify =>
      if e.base.None? || e.target.None? then patch
      else
        var oldF, newF := e.base.value, e.target.value;
        var p1 := CreateParents(patch, e.path).GetOr(patch);
        match storage
        case Full =>
          var staged := if side == StageOld then e.base else e.target;
          Copy(p1, staged, e.path).GetOr(p1)
        case Zstd =>
          if oldF.File? && newF.File?
          then WriteDiff(p1, e.path + CreateDiffSuffix, oldF, newF, codecs.zstdDiff(oldF.info.data, newF.info.data, Level(preset)), clock)
          else p1
        case Bsdiff =>
          if oldF.File? && newF.File?
          then WriteDiff(p1, e.path + CreateDiffSuffix, oldF, newF, codecs.bsDiff(oldF.info.data, newF.info.data), clock)
          else p1
  }

  /** The patch directory after the callback has seen every event. */
  function Stage(patch: Tree, events: seq<DiffEvent>, storage: Storage, preset: Preset, exclude: seq<string>,
                 codecs: Codecs, side: FullSource, clock: u64): (r: Tree)
    ensures patch.Keys <= r.Keys
    decreases |events|
  {
    if |events| == 0 then patch
    else
      var p1 := if Excluded(events[0].path, exclude) then patch
                else StageOne(patch, events[0], storage, preset, codecs, side, clock);
      Stage(p1, events[1..], storage, preset, exclude, codecs, side, clock)
  }

  /** `create_operations`: compares the two mounts with a callback that
      always asks to go on, records an operation per event it does not
      exclude, and stages the payloads. A comparator error is returned as
      is. */
  function CreateOperations(base: Root, target: Root, baseOrder: seq<Path>, targetOrder: seq<Path>,
                            patch: Tree, storage: Storage, preset: Preset, exclude: seq<string>,
                            codecs: Codecs, side: FullSource, clock: u64): (r: Result<(seq<Operation>, Tree), CompareError>)
    requires OrdersFit(base, target, baseOrder, targetOrder)
    ensures r.Success? <==> BothDirectories(base, target)
    ensures r.Success? ==> forall i :: 0 <= i < |r.value.0| ==> !Excluded(r.value.0[i].path, exclude)
    ensures r.Success? ==> patch.Keys <= r.value.1.Keys
  {
    var run := CompareDirectories(base, target, baseOrder, targetOrder, e => true);
    match run.result
    case Fail(err) => Failure(err)
    case Pass =>
      Success((Operations(run.calls, storage, exclude), Stage(patch, run.calls, storage, preset, exclude, codecs, side, clock)))
  }

  /** The events of a comparison carry every entry their kind needs. */
  lemma EventsComplete(baseOrder: seq<Path>, targetOrder: seq<Path>, base: Tree, target: Tree)
    requires Enumerates(baseOrder, base) && Enumerates(targetOrder, target)
    ensures Complete(Events(baseOrder, targetOrder, base, target))
  {
    var r := Events(baseOrder, targetOrder, base, target);
    forall i | 0 <= i < |r|
      ensures r[i].kind == DiffType.Add ==> r[i].target.Some?
      ensures r[i].kind == DiffType.Modify ==> r[i].base.Some? && r[i].target.Some?
    {
      PathsOfMember(r, r[i].kind, r[i].path);
    }
  }

  /** The operation lists `create_operations` produces: a Delete for
      exactly the base-only paths, an Add for exactly the target-only
      paths and a Modify for exactly the paths that are files on both sides
      and fail the identity test, leaving out every excluded path; and all
      Deletes first. */
  lemma CreatePaths(base: Root, target: Root, baseOrder: seq<Path>, targetOrder: seq<Path>,
                    patch: Tree, storage: Storage, preset: Preset, exclude: seq<string>,
                    codecs: Codecs, side: FullSource, clock: u64)
    requires OrdersFit(base, target, baseOrder, targetOrder)
    requires BothDirectories(base, target)
    ensures var ops := CreateOperations(base, target, baseOrder, targetOrder, patch, storage, preset, exclude, codecs, side, clock).value.0;
      var b, t := FileMap(base.node.children), FileMap(target.node.children);
      && OpPaths(ops, Action.Delete) == (set p | p in b.Keys - t.Keys && !Excluded(p, exclude))
      && OpPaths(ops, Action.Add) == (set p | p in t.Keys - b.Keys && !Excluded(p, exclude))
      && OpPaths(ops, Action.Modify) == (set p | p in ModifiedPaths(b, t) && !Excluded(p, exclude))
      && OpsDeletesFirst(ops)
  {
    var b, t := FileMap(base.node.children), FileMap(target.node.children);
    var events := Events(baseOrder, targetOrder, b, t);
    var run := CompareDirectories(base, target, baseOrder, targetOrder, e => true);
    assert run.calls == events;
    EventsComplete(baseOrder, targetOrder, b, t);
    OperationsPaths(events, storage, exclude, DiffType.Delete);
    OperationsPaths(events, storage, exclude, DiffType.Add);
    OperationsPaths(events, storage, exclude, DiffType.Modify);
    OperationsDeletesFirst(events, storage, exclude);
  }

  // ---------------------------------------------------------------------
  // apply_operations
  // ---------------------------------------------------------------------

  /** The name apply looks a diff payload up under: the path followed by
      ".diff " -- with a trailing space that create does not write. */
  const ApplyDiffSuffix: string := ".diff "

  datatype ApplyFailure =
    | CreateDirFailed(path: Path)
    | SourceMissing(path: Path)
    | CopyFailed(path: Path)
    | DiffMissing(path: Path)
    | DecodeFailed(path: Path)

  /** Directory creation failures are returned with `?` even under force;
      every other failure is one force skips. */
  predicate Fatal(e: ApplyFailure) {
    e.CreateDirFailed?
  }

  /** The tree after an operation (including what a failing operation left
      behind) and whether it succeeded. */
  datatype StepResult = StepResult(tree: Tree, outcome: Outcome<ApplyFailure>)

  function Lookup(t: Tree, p: Path): Option<Entry> {
    if p in t then Some(t[p]) else None
  }

  /** Replays a zstd diff onto the file at `p`: both the file and the diff
      must be readable files; the target is then re-created and filled with
      whatever the decoder produces, complete or not. */
  function ZstdPatchFile(t: Tree, p: Path, diff: Entry, codecs: Codecs, clock: u64): (r: StepResult)
    ensures r.outcome.Pass? ==>
      (&& p in t && t[p].File? && diff.File?
       && codecs.zstdPatch(t[p].info.data, diff.info.data).Decoded?
       && r.tree == t[p := File(NewFile(codecs.zstdPatch(t[p].info.data, diff.info.data).data, clock))])
    ensures r.outcome.Fail? ==> r.outcome.error == DecodeFailed(p)
  {
    if !(p in t && t[p].File? && t[p].info.readable && diff.File? && diff.info.readable && CanCreateFile(t, p))
    then StepResult(t, Fail(DecodeFailed(p)))
    else
      match codecs.zstdPatch(t[p].info.data, diff.info.data)
      case Decoded(d) => StepResult(WriteFile(t, p, d, clock).GetOr(t), Pass)
      case Broken(part) => StepResult(WriteFile(t, p, part, clock).GetOr(t), Fail(DecodeFailed(p)))
  }

  /** Replays a bsdiff diff onto the file at `p`; the file is rewritten
      only when decoding succeeds. */
  function BsPatchFile(t: Tree, p: Path, diff: Entry, codecs: Codecs, clock: u64): (r: StepResult)
    ensures r.outcome.Pass? ==>
      (&& p in t && t[p].File? && diff.File?
       && codecs.bsPatch(t[p].info.data, diff.info.data).Some?
       && r.tree == t[p := File(NewFile(codecs.bsPatch(t[p].info.data, diff.info.data).value, clock))])
    ensures r.outcome.Fail? ==> r.tree == t && r.outcome.error == DecodeFailed(p)
  {
    if !(p in t && t[p].File? && t[p].info.readable && diff.File? && diff.info.readable)
    then StepResult(t, Fail(DecodeFailed(p)))
    else
      match codecs.bsPatch(t[p].info.data, diff.info.data)
      case None => StepResult(t, Fail(DecodeFailed(p)))
      case Some(d) =>
        match WriteFile(t, p, d, clock)
        case Some(t1) => StepResult(t1, Pass)
        case None => StepResult(t, Fail(DecodeFailed(p)))
  }

  /** Adds the file or directory the patch holds at `p`. */
  function ApplyAdd(t: Tree, patch: Tree, p: Path): (r: StepResult)
    ensures r.outcome.Pass? && p != "" ==> p in patch && p in r.tree && r.tree[p] == patch[p]
    ensures r.outcome.Fail? && r.outcome.error == SourceMissing(p) ==> p !in patch
  {
    var src := Lookup(patch, p);
    if src == Some(Dir) then
      match CreateDirAll(t, p)
      case None => StepResult(t, Fail(CreateDirFailed(p)))
      case Some(t1) => StepResult(t1, Pass)
    else
      match CreateParents(t, p)
      case None => StepResult(t, Fail(CreateDirFailed(p)))
      case Some(t1) =>
        if src.None? then StepResult(t1, Fail(SourceMissing(p)))
        else
          match Copy(t1, src, p)
          case None => StepResult(t1, Fail(CopyFailed(p)))
          case Some(t2) => StepResult(t2, Pass)
  }

  /** Removes `p` and, if it is a directory, everything below it; a path
      that does not exist is not an error. */
  function ApplyDelete(t: Tree, p: Path): (r: StepResult)
    ensures r.outcome.Pass?
    ensures p !in t ==> r.tree == t
    ensures p in t ==> forall q :: q in r.tree <==> q in t && q != p && !IsAncestor(p, q)
    ensures forall q :: q in r.tree ==> r.tree[q] == t[q]
  {
    if p in t then StepResult(RemoveAll(t, p), Pass) else StepResult(t, Pass)
  }

  /** Rewrites the file at `p` from the payload its storage tag names; no
      tag, or a tag that is none of the three, does nothing. */
  function ApplyModify(t: Tree, patch: Tree, op: Operation, codecs: Codecs, suffix: string, clock: u64): (r: StepResult)
    ensures op.storage.None? || StorageOfTag(op.storage.value).None? ==> r == StepResult(t, Pass)
    ensures r.outcome.Fail? && r.outcome.error.DiffMissing? ==> op.path + suffix !in patch
  {
    var p := op.path;
    match op.storage
    case None => StepResult(t, Pass)
    case Some(tag) =>
      match StorageOfTag(tag)
      case None => StepResult(t, Pass)
      case Some(storage) =>
        match storage
        case Full =>
          (match Copy(t, Lookup(patch, p), p)
           case None => StepResult(t, Fail(CopyFailed(p)))
           case Some(t1) => StepResult(t1, Pass))
        case Zstd =>
          if p + suffix !in patch then StepResult(t, Fail(DiffMissing(p)))
          else ZstdPatchFile(t, p, patch[p + suffix], codecs, clock)
        case Bsdiff =>
          if p + suffix !in patch then StepResult(t, Fail(DiffMissing(p)))
          else BsPatchFile(t, p, patch[p + suffix], codecs, clock)
  }

  /** One operation of `apply_operations`; an excluded path is skipped. */
  function ApplyOne(t: Tree, patch: Tree, op: Operation, exclude: seq<string>, codecs: Codecs,
                    suffix: string, clock: u64): (r: StepResult)
    ensures Excluded(op.path, exclude) ==> r == StepResult(t, Pass)
    ensures !Excluded(op.path, exclude) && op.action == Action.Delete && op.path !in t ==> r == StepResult(t, Pass)
    ensures (&& !Excluded(op.path, exclude) && op.action == Action.Modify
             && (op.storage.None? || StorageOfTag(op.storage.value).None?)) ==> r == StepResult(t, Pass)
    ensures r.outcome.Fail? ==> r.outcome.error.path == op.path
  {
    if Excluded(op.path, exclude) then StepResult(t, Pass)
    else
      match op.action
      case Add => ApplyAdd(t, patch, op.path)
      case Delete => ApplyDelete(t, op.path)
      case Modify => ApplyModify(t, patch, op, codecs, suffix, clock)
  }

  /** An applied operation touches only its own path, the directories
      above it and, for a Delete, what lies below it. */
  lemma ApplyOneFrame(t: Tree, patch: Tree, op: Operation, exclude: seq<string>, codecs: Codecs,
                      suffix: string, clock: u64, q: Path)
    requires q != op.path && !IsAncestor(q, op.path) && !IsAncestor(op.path, q)
    ensures var r := ApplyOne(t, patch, op, exclude, codecs, suffix, clock);
      (q in r.tree <==> q in t) && (q in t ==> r.tree[q] == t[q])
  {
  }

  /** `apply_operations`: the operations in order. A failure stops the
      replay and is returned, except that under force any failure other
      than a directory creation error is skipped; either way the tree keeps
      every change made so far. */
  function ApplyOperations(t: Tree, patch: Tree, ops: seq<Operation>, exclude: seq<string>, force: bool,
                           codecs: Codecs, suffix: string, clock: u64): (r: StepResult)
    ensures force && r.outcome.Fail? ==> Fatal(r.outcome.error)
    decreases |ops|
  {
    if |ops| == 0 then StepResult(t, Pass)
    else
      var s := ApplyOne(t, patch, ops[0], exclude, codecs, suffix, clock);
      if s.outcome.Fail? && (!force || Fatal(s.outcome.error)) then s
      else ApplyOperations(s.tree, patch, ops[1..], exclude, force, codecs, suffix, clock)
  }

  /** Replaying two lists is replaying the first and then, unless it
      stopped on a failure, the second on its result. */
  lemma {:induction false} ApplyAppend(t: Tree, patch: Tree, xs: seq<Operation>, ys: seq<Operation>, exclude: seq<string>,
                                       force: bool, codecs: Codecs, suffix: string, clock: u64)
    ensures var a := ApplyOperations(t, patch, xs, exclude, force, codecs, suffix, clock);
      ApplyOperations(t, patch, xs + ys, exclude, force, codecs, suffix, clock) ==
        if a.outcome.Fail? then a else ApplyOperations(a.tree, patch, ys, exclude, force, codecs, suffix, clock)
    decreases |xs|
  {
    if |xs| == 0 {
      assert xs + ys == ys;
    } else {
      var s := ApplyOne(t, patch, xs[0], exclude, codecs, suffix, clock);
      assert (xs + ys)[0] == xs[0];
      assert (xs + ys)[1..] == xs[1..] + ys;
      if !(s.outcome.Fail? && (!force || Fatal(s.outcome.error))) {
        ApplyAppend(s.tree, patch, xs[1..], ys, exclude, force, codecs, suffix, clock);
      }
    }
  }

  /** Without force a failed replay is the failure of one operation, run
      on the tree that all operations before it produced successfully. */
  lemma {:induction false} FailureStops(t: Tree, patch: Tree, ops: seq<Operation>, exclude: seq<string>,
                                        codecs: Codecs, suffix: string, clock: u64) returns (k: nat)
    requires ApplyOperations(t, patch, ops, exclude, false, codecs, suffix, clock).outcome.Fail?
    ensures k < |ops|
    ensures var before := ApplyOperations(t, patch, ops[..k], exclude, false, codecs, suffix, clock);
      && before.outcome.Pass?
      && ApplyOne(before.tree, patch, ops[k], exclude, codecs, suffix, clock) ==
         ApplyOperations(t, patch, ops, exclude, false, codecs, suffix, clock)
    decreases |ops|
  {
    var s := ApplyOne(t, patch, ops[0], exclude, codecs, suffix, clock);
    if s.outcome.Fail? {
      k := 0;
      assert ops[..0] == [];
    } else {
      var tail := ops[1..];
      assert ApplyOperations(t, patch, ops, exclude, false, codecs, suffix, clock) ==
             ApplyOperations(s.tree, patch, tail, exclude, false, codecs, suffix, clock);
      var k' := FailureStops(s.tree, patch, tail, exclude, codecs, suffix, clock);
      k := k' + 1;
      var pre := tail[..k'];
      PrefixCons(ops, k);
      assert ApplyOperations(t, patch, [ops[0]], exclude, false, codecs, suffix, clock) ==
             ApplyOperations(s.tree, patch, [], exclude, false, codecs, suffix, clock) by {
        assert [ops[0]][1..] == [];
      }
      ApplyAppend(t, patch, [ops[0]], pre, exclude, false, codecs, suffix, clock);
      assert ops[k] == tail[k'];
    }
  }

  lemma PrefixCons(s: seq<Operation>, k: nat)
    requires 0 < k <= |s|
    ensures s[..k] == [s[0]] + s[1..][..k - 1]
  {
  }

  /** Under force a skipped operation keeps what it left behind, and the
      replay goes on with the next one. */
  lemma ForceSkips(t: Tree, patch: Tree, ops: seq<Operation>, exclude: seq<string>, codecs: Codecs,
                   suffix: string, clock: u64)
    requires |ops| > 0
    requires var s := ApplyOne(t, patch, ops[0], exclude, codecs, suffix, clock);
      s.outcome.Fail? && !Fatal(s.outcome.error)
    ensures ApplyOperations(t, patch, ops, exclude, true, codecs, suffix, clock) ==
            ApplyOperations(ApplyOne(t, patch, ops[0], exclude, codecs, suffix, clock).tree, patch, ops[1..],
                            exclude, true, codecs, suffix, clock)
  {
  }
}

=== FILE: roundtrip.dfy ===
/** What happens to one modified file between `create_operations` staging
    its payload and `apply_operations` replaying its operation.

    Two defects sit on this path. The Full storage stages the file as it
    was BEFORE the change, so replaying copies the old content back; and
    apply looks the zstd and bsdiff payloads up under "{path}.diff " with a
    trailing space, a name create never writes when names are matched
    exactly, as here. Each is shown on the code
    as written, and the corrected pairing (`StageNew`, and apply using the
    create suffix) is shown to hand the replay exactly what create
    produced. */
module RoundTrip {
  import opened Wrappers
  import opened Manifest
  import opened Fs
  import opened DirCompare
  import opened PatchOps

  /** The diff name apply uses once corrected: the one create writes. */
  const FixedApplySuffix: string := CreateDiffSuffix

  /** A modified file: both sides are files, the old one can be read, and
      the new one can be read. */
  predicate ModifiedFile(e: DiffEvent) {
    && e.kind == DiffType.Modify
    && e.base.Some? && e.base.value.File? && e.base.value.info.readable
    && e.target.Some? && e.target.value.File? && e.target.value.info.readable
  }

  /** A file can be written at `p` in `t`: its directories exist and `p`
      is not a directory. */
  predicate Writable(t: Tree, p: Path) {
    ParentReady(t, p) && !(p in t && t[p] == Dir)
  }

  /** When the directories above `p` exist, creating them changes nothing. */
  lemma ParentsReady(t: Tree, p: Path)
    requires ParentReady(t, p)
    ensures CreateParents(t, p) == Some(t)
  {
    var r := CreateParents(t, p).value;
    assert r.Keys == t.Keys;
    assert forall q :: q in r ==> r[q] == t[q];
    assert r == t;
  }

  /** Appending ".diff" (or any text without a separator) to a path keeps
      its directories. */
  lemma AncestorsOfSuffixed(p: Path, suffix: string)
    requires forall i :: 0 <= i < |suffix| ==> suffix[i] != Sep
    ensures Ancestors(p + suffix) == Ancestors(p)
  {
    forall a | a in Ancestors(p + suffix) ensures a in Ancestors(p) {
      if |a| >= |p| {
        assert false;
      }
      assert (p + suffix)[..|a|] == p[..|a|];
    }
    forall a | a in Ancestors(p) ensures a in Ancestors(p + suffix) {
      assert (p + suffix)[..|a|] == p[..|a|];
    }
  }

  /** The operation recorded for a modified file with storage `s`. */
  lemma ModifyOperation(e: DiffEvent, s: Storage)
    requires ModifiedFile(e)
    ensures OperationOf(e, s) == Some(Operation(Action.Modify, e.path, Some(EntrySize(e.target.value)), Some(Tag(s))))
    ensures StorageOfTag(Tag(s)) == Some(s)
  {
    TagRoundTrip(s, Tag(s));
  }

  /** An added file: the staged copy is the new file, and replaying the
      Add on the base image puts exactly that file at its path, whatever
      the storage. This round trip works as written. */
  lemma AddFileRoundTrip(patch: Tree, t: Tree, e: DiffEvent, s: Storage, preset: Preset, codecs: Codecs,
                         exclude: seq<string>, suffix: string, side: FullSource, clock: u64)
    requires e.kind == DiffType.Add && e.target.Some? && e.target.value.File? && e.target.value.info.readable
    requires !Excluded(e.path, exclude)
    requires NoFileAbove(patch, e.path) && !(e.path in patch && patch[e.path] == Dir)
    requires NoFileAbove(t, e.path) && !(e.path in t && t[e.path] == Dir)
    ensures var staged := StageOne(patch, e, s, preset, codecs, side, clock);
      var r := ApplyOne(t, staged, OperationOf(e, s).value, exclude, codecs, suffix, clock);
      r.outcome.Pass? && e.path in r.tree && r.tree[e.path] == e.target.value
  {
  }

  /** An added directory: it is created in the patch directory, and
      replaying the Add creates it in the base image. */
  lemma AddDirRoundTrip(patch: Tree, t: Tree, e: DiffEvent, s: Storage, preset: Preset, codecs: Codecs,
                        exclude: seq<string>, suffix: string, side: FullSource, clock: u64)
    requires e.kind == DiffType.Add && e.target == Some(Dir) && e.path != ""
    requires !Excluded(e.path, exclude)
    requires NoFileAbove(patch, e.path) && !(e.path in patch && patch[e.path] != Dir)
    requires NoFileAbove(t, e.path) && !(e.path in t && t[e.path] != Dir)
    ensures var staged := StageOne(patch, e, s, preset, codecs, side, clock);
      var r := ApplyOne(t, staged, OperationOf(e, s).value, exclude, codecs, suffix, clock);
      r.outcome.Pass? && e.path in r.tree && r.tree[e.path] == Dir
  {
  }

  /** Full storage, as written: the staged payload is the old file, and
      replaying the operation on a tree that holds the old file puts the
      old file back -- the modification is lost whenever the two
      differ. */
  lemma FullStagesOld(patch: Tree, t: Tree, e: DiffEvent, preset: Preset, codecs: Codecs, exclude: seq<string>,
                      suffix: string, clock: u64)
    requires ModifiedFile(e) && !Excluded(e.path, exclude)
    requires Writable(patch, e.path) && Writable(t, e.path)
    ensures var staged := StageOne(patch, e, Full, preset, codecs, StageOld, clock);
      var r := ApplyOne(t, staged, OperationOf(e, Full).value, exclude, codecs, suffix, clock);
      r.outcome.Pass? && e.path in r.tree && r.tree[e.path] == e.base.value
  {
    ParentsReady(patch, e.path);
    ModifyOperation(e, Full);
  }

  /** Full storage, corrected: staging the new file makes the replay put
      the new file in place. */
  lemma FullStagesNew(patch: Tree, t: Tree, e: DiffEvent, preset: Preset, codecs: Codecs, exclude: seq<string>,
                      suffix: string, clock: u64)
    requires ModifiedFile(e) && !Excluded(e.path, exclude)
    requires Writable(patch, e.path) && Writable(t, e.path)
    ensures var staged := StageOne(patch, e, Full, preset, codecs, StageNew, clock);
      var r := ApplyOne(t, staged, OperationOf(e, Full).value, exclude, codecs, suffix, clock);
      r.outcome.Pass? && e.path in r.tree && r.tree[e.path] == e.target.value
  {
    ParentsReady(patch, e.path);
    ModifyOperation(e, Full);
  }

  /** The differential storages, as written and with file names matched
      exactly: staging writes "{path}.diff", apply asks for "{path}.diff ",
      finds nothing (unless the patch already held a file of that name) and
      fails without touching the tree; under force the failure is skipped
      and the file silently stays old. Win32 name resolution trims the
      trailing space and would likely find the payload. */
  lemma DiffNameMismatch(patch: Tree, t: Tree, e: DiffEvent, s: Storage, preset: Preset, codecs: Codecs,
                         exclude: seq<string>, clock: u64)
    requires ModifiedFile(e) && !Excluded(e.path, exclude) && s != Full
    requires e.path + ApplyDiffSuffix !in patch
    ensures var staged := StageOne(patch, e, s, preset, codecs, StageOld, clock);
      var r := ApplyOne(t, staged, OperationOf(e, s).value, exclude, codecs, ApplyDiffSuffix, clock);
      r == StepResult(t, Fail(DiffMissing(e.path)))
  {
    ModifyOperation(e, s);
    var staged := StageOne(patch, e, s, preset, codecs, StageOld, clock);
    var p := e.path;
    assert p + ApplyDiffSuffix != p + CreateDiffSuffix by {
      assert |p + ApplyDiffSuffix| != |p + CreateDiffSuffix|;
    }
    var p1 := CreateParents(patch, p).GetOr(patch);
    assert p + ApplyDiffSuffix !in p1 by {
      if CreateParents(patch, p).Some? {
        assert |p + ApplyDiffSuffix| > |p|;
        assert p + ApplyDiffSuffix !in Ancestors(p);
      }
    }
  }

  /** zstd storage, corrected: the replay decodes the old file against
      exactly the payload create encoded from the old and new files, and
      the file then holds what the decoder produced. */
  lemma ZstdPayloadReaches(patch: Tree, t: Tree, e: DiffEvent, preset: Preset, codecs: Codecs,
                           exclude: seq<string>, clock: u64)
    requires ModifiedFile(e) && !Excluded(e.path, exclude)
    requires Writable(patch, e.path + CreateDiffSuffix)
    requires Writable(t, e.path) && e.path in t && t[e.path] == e.base.value
    ensures var before, after := e.base.value.info.data, e.target.value.info.data;
      var blob := codecs.zstdDiff(before, after, Level(preset));
      var staged := StageOne(patch, e, Zstd, preset, codecs, StageOld, clock);
      var r := ApplyOne(t, staged, OperationOf(e, Zstd).value, exclude, codecs, FixedApplySuffix, clock);
      && (codecs.zstdPatch(before, blob).Decoded? ==>
            r.outcome.Pass? && r.tree[e.path].File? && r.tree[e.path].info.data == codecs.zstdPatch(before, blob).data)
      && (codecs.zstdPatch(before, blob) == Decoded(after) ==> r.tree[e.path].info.data == after)
  {
    var p := e.path;
    AncestorsOfSuffixed(p, CreateDiffSuffix);
    ParentsReady(patch, p);
    ModifyOperation(e, Zstd);
  }

  /** bsdiff storage, corrected: as for zstd, and a failed decode leaves
      the file as it was. */
  lemma BsdiffPayloadReaches(patch: Tree, t: Tree, e: DiffEvent, preset: Preset, codecs: Codecs,
                             exclude: seq<string>, clock: u64)
    requires ModifiedFile(e) && !Excluded(e.path, exclude)
    requires Writable(patch, e.path + CreateDiffSuffix)
    requires Writable(t, e.path) && e.path in t && t[e.path] == e.base.value
    ensures var before, after := e.base.value.info.data, e.target.value.info.data;
      var blob := codecs.bsDiff(before, after);
      var staged := StageOne(patch, e, Bsdiff, preset, codecs, StageOld, clock);
      var r := ApplyOne(t, staged, OperationOf(e, Bsdiff).value, exclude, codecs, FixedApplySuffix, clock);
      && (codecs.bsPatch(before, blob).Some? ==>
            r.outcome.Pass? && r.tree[e.path].File? && r.tree[e.path].info.data == codecs.bsPatch(before, blob).value)
      && (codecs.bsPatch(before, blob).None? ==> r.tree == t && r.outcome.Fail?)
      && (codecs.bsPatch(before, blob) == Some(after) ==> r.tree[e.path].info.data == after)
  {
    var p := e.path;
    AncestorsOfSuffixed(p, CreateDiffSuffix);
    ParentsReady(patch, p);
    ModifyOperation(e, Bsdiff);
  }
}

=== FILE: semver.dfy ===
/** The version numbers the chain matcher sorts patches by: the
    MAJOR.MINOR.PATCH core of a semantic version, parsed the way the
    `semver` crate parses it (decimal numerals without leading zeros, each
    below 2^64) and ordered field by field. */
module SemVer {
  import opened Wrappers
  import opened Manifest

  datatype Version = Version(major: u64, minor: u64, patch: u64)

  /** `Version::new(0, 0, 0)`, the stand-in for a version that fails to parse. */
  const Zero: Version := Version(0, 0, 0)

  predicate IsDigit(c: char) {
    '0' <= c <= '9'
  }

  predicate AllDigits(s: string) {
    forall i :: 0 <= i < |s| ==> IsDigit(s[i])
  }

  /** A decimal numeral as the crate accepts it: at least one digit, and no
      leading zero unless the numeral is "0". */
  predicate Numeral(s: string) {
    |s| > 0 && AllDigits(s) && (s[0] == '0' ==> |s| == 1)
  }

  function DigitValue(c: char): nat
    requires IsDigit(c)
  {
    c as int - '0' as int
  }

  function DigitChar(d: nat): (c: char)
    requires d < 10
    ensures IsDigit(c) && DigitValue(c) == d
  {
    ('0' as int + d) as char
  }

  /** The number a string of digits denotes. */
  function ValueOf(s: string): nat
    requires AllDigits(s)
  {
    if |s| == 0 then 0 else ValueOf(s[..|s| - 1]) * 10 + DigitValue(s[|s| - 1])
  }

  /** The decimal numeral of `n`. */
  function Show(n: nat): (r: string)
    ensures Numeral(r) && ValueOf(r) == n
  {
    if n < 10 then [DigitChar(n)]
    else
      var r := Show(n / 10) + [DigitChar(n % 10)];
      assert r[..|r| - 1] == Show(n / 10);
      r
  }

  /** A numeral with a leading non-zero digit denotes at least 1. */
  lemma {:induction false} ValuePositive(s: string)
    requires Numeral(s) && s[0] != '0'
    ensures ValueOf(s) >= 1
  {
    if |s| > 1 {
      var s' := s[..|s| - 1];
      assert s'[0] == s[0];
      ValuePositive(s');
    }
  }

  /** Every numeral is the one `Show` produces for its value: the crate's
      numerals are canonical. */
  lemma {:induction false} ShowValue(s: string)
    requires Numeral(s)
    ensures Show(ValueOf(s)) == s
  {
    if |s| > 1 {
      var s' := s[..|s| - 1];
      assert s'[0] == s[0];
      ValuePositive(s');
      ShowValue(s');
      assert s == s' + [s[|s| - 1]];
    }
  }

  /** One numeric field. */
  function ParseNumber(s: string): (r: Option<u64>)
    ensures r.Some? ==> Numeral(s) && Show(r.value) == s
    ensures Numeral(s) && ValueOf(s) < 0x1_0000_0000_0000_0000 ==> r == Some(ValueOf(s))
    ensures !Numeral(s) ==> r.None?
  {
    if Numeral(s) && ValueOf(s) < 0x1_0000_0000_0000_0000 then
      ShowValue(s);
      Some(ValueOf(s))
    else None
  }

  /** The text before the first dot and the text after it. */
  function CutDot(s: string): (r: Option<(string, string)>)
    ensures r.Some? ==> s == r.value.0 + "." + r.value.1
    ensures r.Some? ==> forall k :: 0 <= k < |r.value.0| ==> r.value.0[k] != '.'
    ensures r.None? <==> forall k :: 0 <= k < |s| ==> s[k] != '.'
  {
    if |s| == 0 then None
    else if s[0] == '.' then Some(([], s[1..]))
    else
      match CutDot(s[1..])
      case None => None
      case Some((h, t)) =>
        assert s == [s[0]] + s[1..];
        Some(([s[0]] + h, t))
  }

  /** The three fields of a version's core: the text before the first dot,
      between the first and the second dot, and after the second dot. */
  function SplitDots(s: string): (r: Option<(string, string, string)>)
    ensures r.Some? ==> s == r.value.0 + "." + r.value.1 + "." + r.value.2
    ensures r.Some? ==> forall k :: 0 <= k < |r.value.0| ==> r.value.0[k] != '.'
    ensures r.Some? ==> forall k :: 0 <= k < |r.value.1| ==> r.value.1[k] != '.'
  {
    match CutDot(s)
    case None => None
    case Some((a, rest)) =>
      match CutDot(rest)
      case None => None
      case Some((b, c)) =>
        assert s == a + "." + (b + "." + c);
        Some((a, b, c))
  }

  /** `Version::parse` on the core of a version: three numerals separated by
      the first two dots. Only the rendering of a version parses to it, so
      with `ParseRender` a text parses to `v` exactly when it is
      `Render(v)`. */
  function Parse(s: string): (r: Option<Version>)
    ensures r.Some? ==> s == Render(r.value)
  {
    match SplitDots(s)
    case None => None
    case Some((a, b, c)) =>
      match (ParseNumber(a), ParseNumber(b), ParseNumber(c))
      case (Some(x), Some(y), Some(z)) => Some(Version(x, y, z))
      case _ => None
  }

  /** The text form of a version. */
  function Render(v: Version): string {
    Show(v.major) + "." + Show(v.minor) + "." + Show(v.patch)
  }

  /** The sort key of a patch: its parsed version, or 0.0.0 when the text
      does not parse. */
  function ParseOrZero(s: string): (r: Version)
    ensures Parse(s).Some? ==> r == Parse(s).value
    ensures Parse(s).None? ==> r == Zero
  {
    match Parse(s)
    case Some(v) => v
    case None => Zero
  }

  /** The derived ordering of the crate: major first, then minor, then patch. */
  predicate Less(a: Version, b: Version)
    ensures Less(a, b) ==> a != b && a.major <= b.major
    ensures a.major < b.major ==> Less(a, b)
  {
    || a.major < b.major
    || (a.major == b.major && a.minor < b.minor)
    || (a.major == b.major && a.minor == b.minor && a.patch < b.patch)
  }

  lemma LessTotal(a: Version, b: Version)
    ensures a == b || Less(a, b) || Less(b, a)
    ensures !(Less(a, b) && Less(b, a))
  {
  }

  lemma LessTransitive(a: Version, b: Version, c: Version)
    requires Less(a, b) && Less(b, c)
    ensures Less(a, c)
  {
  }

  /** A dot-free head followed by a dot is cut right after the head. */
  lemma {:induction false} CutJoin(a: string, tail: string)
    requires forall k :: 0 <= k < |a| ==> a[k] != '.'
    ensures CutDot(a + "." + tail) == Some((a, tail))
  {
    if |a| > 0 {
      assert (a + "." + tail)[1..] == a[1..] + "." + tail;
      CutJoin(a[1..], tail);
      assert [a[0]] + a[1..] == a;
    } else {
      assert a + "." + tail == "." + tail;
    }
  }

  /** Three fields, the first two dot-free, joined by dots split back into
      themselves. */
  lemma SplitJoin(a: string, b: string, c: string)
    requires forall k :: 0 <= k < |a| ==> a[k] != '.'
    requires forall k :: 0 <= k < |b| ==> b[k] != '.'
    ensures SplitDots(a + "." + b + "." + c) == Some((a, b, c))
  {
    assert a + "." + b + "." + c == a + "." + (b + "." + c);
    CutJoin(a, b + "." + c);
    CutJoin(b, c);
  }

  /** A rendered version parses back to itself. */
  lemma ParseRender(v: Version)
    ensures Parse(Render(v)) == Some(v)
  {
    var a, b, c := Show(v.major), Show(v.minor), Show(v.patch);
    SplitJoin(a, b, c);
    ShowValue(a);
    ShowValue(b);
    ShowValue(c);
  }
}

=== FILE: text.dfy ===
/** String helpers shared by the comparator, the exclusion filter and the XML
    splicing code: ASCII lower-casing and first/last substring search, the
    model of Rust's `to_ascii_lowercase`, `str::contains`, `str::find` and
    `str::rfind`. Strings are sequences of characters; indices are character
    positions. */
module Text {
  import opened Wrappers

  /** Lower-cases 'A'..'Z' and leaves every other character alone. */
  function AsciiLower(c: char): (r: char)
    ensures 'A' <= c <= 'Z' ==> 'a' <= r <= 'z'
    ensures !('A' <= c <= 'Z') ==> r == c
  {
    if 'A' <= c <= 'Z' then (c as int + 32) as char else c
  }

  function ToAsciiLower(s: string): (r: string)
    ensures |r| == |s|
    ensures forall i :: 0 <= i < |s| ==> r[i] == AsciiLower(s[i])
  {
    seq(|s|, i requires 0 <= i < |s| => AsciiLower(s[i]))
  }

  /** `pat` occurs in `s` starting at position `i`. */
  predicate OccursAt(s: string, pat: string, i: int) {
    0 <= i && i + |pat| <= |s| && forall k :: 0 <= k < |pat| ==> s[i + k] == pat[k]
  }

  predicate Contains(s: string, pat: string) {
    exists i :: 0 <= i <= |s| - |pat| && OccursAt(s, pat, i)
  }

  /** The exclusion test of the patch engine: `pat` occurs in `s` once both
      are lower-cased in ASCII. */
  predicate ContainsIgnoreAsciiCase(s: string, pat: string) {
    Contains(ToAsciiLower(s), ToAsciiLower(pat))
  }

  /** First occurrence of `pat` in `s` at or after position `from`. */
  function FindFrom(s: string, pat: string, from: nat): (r: Option<nat>)
    requires from <= |s|
    ensures r.Some? ==> from <= r.value && OccursAt(s, pat, r.value)
    ensures r.Some? ==> forall j :: from <= j < r.value ==> !OccursAt(s, pat, j)
    ensures r.None? ==> forall j :: from <= j ==> !OccursAt(s, pat, j)
    decreases |s| - from
  {
    if from + |pat| > |s| then None
    else if OccursAt(s, pat, from) then Some(from)
    else if from == |s| then None
    else FindFrom(s, pat, from + 1)
  }

  /** `str::find`: the first position at which `pat` occurs. */
  function Find(s: string, pat: string): (r: Option<nat>)
    ensures r.Some? ==> OccursAt(s, pat, r.value)
    ensures r.Some? ==> forall j :: 0 <= j < r.value ==> !OccursAt(s, pat, j)
    ensures r.None? ==> forall j :: !OccursAt(s, pat, j)
    ensures r.Some? <==> Contains(s, pat)
  {
    FindFrom(s, pat, 0)
  }

  /** Last occurrence of `pat` in `s` starting at or before position `upto`. */
  function RFindUpto(s: string, pat: string, upto: nat): (r: Option<nat>)
    ensures r.Some? ==> r.value <= upto && OccursAt(s, pat, r.value)
    ensures r.Some? ==> forall j :: r.value < j <= upto ==> !OccursAt(s, pat, j)
    ensures r.None? ==> forall j :: j <= upto ==> !OccursAt(s, pat, j)
  {
    if OccursAt(s, pat, upto) then Some(upto)
    else if upto == 0 then None
    else RFindUpto(s, pat, upto - 1)
  }

  /** `str::rfind`: the last position at which `pat` occurs. */
  function RFind(s: string, pat: string): (r: Option<nat>)
    ensures r.Some? ==> OccursAt(s, pat, r.value)
    ensures r.Some? ==> forall j :: r.value < j ==> !OccursAt(s, pat, j)
    ensures r.None? ==> forall j :: !OccursAt(s, pat, j)
    ensures r.Some? <==> Contains(s, pat)
  {
    RFindUpto(s, pat, |s|)
  }

  /** An occurrence of `pat` that starts inside `u` cannot reach into `v`
      when `v` starts with `pat`'s first character and that character does
      not reappear later in `pat` (true of every XML tag, whose only '<' is
      its first character). */
  lemma {:induction false} NoCrossing(u: string, v: string, pat: string, j: int)
    requires |pat| > 0 && |v| > 0 && v[0] == pat[0]
    requires forall k :: 0 < k < |pat| ==> pat[k] != pat[0]
    requires 0 <= j < |u| && OccursAt(u + v, pat, j)
    ensures OccursAt(u, pat, j)
  {
    if j + |pat| > |u| {
      CharOfOccurrence(u + v, pat, j, |u| - j);
      assert false;
    }
    assert (u + v)[j..j + |pat|] == u[j..j + |pat|];
  }

  /** The `k`-th character of an occurrence is the `k`-th character of `pat`. */
  lemma {:induction false} CharOfOccurrence(s: string, pat: string, i: int, k: int)
    requires OccursAt(s, pat, i) && 0 <= k < |pat|
    ensures s[i + k] == pat[k]
  {
    assert s[i..i + |pat|][k] == pat[k];
  }

  /** Occurrences in the right part of a concatenation shift by `|u|`. */
  lemma {:induction false} OccursShift(u: string, v: string, pat: string, j: int)
    requires |u| <= j
    ensures OccursAt(u + v, pat, j) <==> OccursAt(v, pat, j - |u|)
  {
  }

  /** Occurrences inside the left part of a concatenation are kept. */
  lemma {:induction false} OccursLeft(u: string, v: string, pat: string, j: int)
    requires 0 <= j && j + |pat| <= |u|
    ensures OccursAt(u + v, pat, j) <==> OccursAt(u, pat, j)
  {
    assert (u + v)[j..j + |pat|] == u[j..j + |pat|];
  }

  /** Occurrences that end within the first `n` characters are those of the
      prefix of length `n`. */
  lemma {:induction false} OccursPrefix(s: string, n: nat, pat: string, j: int)
    requires 0 <= j && j + |pat| <= n <= |s|
    ensures OccursAt(s[..n], pat, j) <==> OccursAt(s, pat, j)
  {
  }

  /** Two adjacent occurrences form an occurrence of the concatenation. */
  lemma {:induction false} OccursJoin(s: string, p: string, q: string, i: int)
    requires OccursAt(s, p, i) && OccursAt(s, q, i + |p|)
    ensures OccursAt(s, p + q, i)
  {
  }

  /** A slice of `s` occurs in `s` where it was taken. */
  lemma {:induction false} OccursSlice(s: string, i: nat, j: nat)
    requires i <= j <= |s|
    ensures OccursAt(s, s[i..j], i)
  {
  }

  /** The first occurrence at or after `from` is determined by the
      occurrences: it is the one with none between `from` and it. */
  lemma {:induction false} FindFromIs(s: string, pat: string, from: nat, i: nat)
    requires from <= i && from <= |s|
    requires OccursAt(s, pat, i)
    requires forall j :: from <= j < i ==> !OccursAt(s, pat, j)
    ensures FindFrom(s, pat, from) == Some(i)
  {
  }

  /** A search that starts where a prefix ends finds what a search of the
      rest finds, shifted by the prefix. */
  lemma {:induction false} FindAfterPrefix(pre: string, t: string, pat: string)
    requires Find(t, pat).Some?
    ensures FindFrom(pre + t, pat, |pre|) == Some(|pre| + Find(t, pat).value)
  {
    var i := Find(t, pat).value;
    forall j | |pre| <= j < |pre| + i ensures !OccursAt(pre + t, pat, j) {
      OccursShift(pre, t, pat, j);
    }
    OccursShift(pre, t, pat, |pre| + i);
    FindFromIs(pre + t, pat, |pre|, |pre| + i);
  }

  /** Putting back the text a slice already holds gives the same text. */
  lemma {:induction false} SpliceSame(s: string, a: nat, v: string)
    requires a + |v| <= |s| && s[a..a + |v|] == v
    ensures s[..a] + (v + s[a + |v|..]) == s
  {
    assert s == s[..a] + (s[a..a + |v|] + s[a + |v|..]);
  }
}

=== FILE: wrappers.dfy ===
/** Option and Result, the two failure-carrying shapes the model uses in place
    of Rust's `Option<T>` and `anyhow::Result<T>`. */
module Wrappers {

  datatype Option<+T> = None | Some(value: T) {

    /** Returns the value in Some, or `default` for None (Rust's `unwrap_or`). */
    function GetOr(default: T): T {
      match this
      case Some(v) => v
      case None => default
    }
  }

  datatype Result<+R, +E> = Success(value: R) | Failure(error: E)

  /** A success that carries nothing, or an error (Rust's `Result<()>`). */
  datatype Outcome<+E> = Pass | Fail(error: E)
}

=== FILE: xmltext.dfy ===
/** The plain-text XML splicing of the patch engine: `replace_xml_field`
    (rewrites the text of the first element of a given name), the insertion
    of the image fields and the manifest before the last `</IMAGE>` when a
    patch image is written, and the extraction of the `<PatchManifest>`
    element when a patch image is read back. None of these parse XML; they
    search for tag strings. Positions are character positions (the source
    uses byte offsets, which `find` and slicing use consistently). */
module XmlText {
  import opened Wrappers
  import opened Text

  function StartTag(name: string): string {
    "<" + name + ">"
  }

  function EndTag(name: string): string {
    "</" + name + ">"
  }

  /** A tag name in which '<' does not occur, so that '<' occurs in its
      tags only as their first character. */
  predicate PlainName(name: string) {
    forall k :: 0 <= k < |name| ==> name[k] != '<'
  }

  lemma {:induction false} EndTagLtFirst(name: string)
    requires PlainName(name)
    ensures forall k :: 0 < k < |EndTag(name)| ==> EndTag(name)[k] != EndTag(name)[0]
  {
    var e := EndTag(name);
    forall k | 0 < k < |e| ensures e[k] != e[0] {
      if 2 <= k < |e| - 1 { assert e[k] == name[k - 2]; }
    }
  }

  /** An occurrence at or after `a` is an occurrence in the suffix from `a`. */
  lemma {:induction false} OccursSuffix(s: string, pat: string, a: nat, j: int)
    requires a <= |s| && a <= j
    ensures OccursAt(s, pat, j) <==> OccursAt(s[a..], pat, j - a)
  {
    if j + |pat| <= |s| {
      assert s[j..j + |pat|] == s[a..][j - a..j - a + |pat|];
    }
  }

  // ---------------------------------------------------------------------
  // replace_xml_field

  /** The text of the first `name` element: it starts after the first start
      tag and ends at the first end tag after that. None when there is no
      start tag, or no end tag after the first one. */
  function FieldSpan(xml: string, name: string): (r: Option<(nat, nat)>)
    ensures r.Some? ==> |StartTag(name)| <= r.value.0 <= r.value.1 <= |xml|
    ensures r.Some? ==> OccursAt(xml, StartTag(name), r.value.0 - |StartTag(name)|)
    ensures r.Some? ==> forall j :: 0 <= j < r.value.0 - |StartTag(name)| ==> !OccursAt(xml, StartTag(name), j)
    ensures r.Some? ==> OccursAt(xml, EndTag(name), r.value.1)
    ensures r.Some? ==> forall j :: r.value.0 <= j < r.value.1 ==> !OccursAt(xml, EndTag(name), j)
    ensures r.None? <==> !exists i, j :: OccursAt(xml, StartTag(name), i) && i + |StartTag(name)| <= j
                                          && OccursAt(xml, EndTag(name), j)
  {
    var st, et := StartTag(name), EndTag(name);
    match Find(xml, st)
    case None => None
    case Some(s) =>
      var a := s + |st|;
      match FindFrom(xml, et, a)
      case None => None
      case Some(e) => Some((a, e))
  }

  /** `replace_xml_field`: the text of the first `name` element becomes
      `value`; without such an element the XML is returned unchanged. */
  function ReplaceXmlField(xml: string, name: string, value: string): (r: string)
    ensures FieldSpan(xml, name).None? ==> r == xml
    ensures FieldSpan(xml, name).Some? ==>
      var (a, b) := FieldSpan(xml, name).value;
      |r| == |xml| - (b - a) + |value|
  {
    match FieldSpan(xml, name)
    case None => xml
    case Some((a, b)) => xml[..a] + (value + xml[b..])
  }

  /** Outside the field's text nothing changes: the text up to and with the
      start tag, and the text from the end tag on, are kept. */
  lemma {:induction false} ReplaceKeepsRest(xml: string, name: string, value: string)
    requires FieldSpan(xml, name).Some?
    ensures var (a, b) := FieldSpan(xml, name).value;
      var r := ReplaceXmlField(xml, name, value);
      && r[..a] == xml[..a]
      && r[a..a + |value|] == value
      && r[a + |value|..] == xml[b..]
  {
    var (a, b) := FieldSpan(xml, name).value;
    var r := ReplaceXmlField(xml, name, value);
    assert r[..a] == xml[..a];
    assert r[a..a + |value|] == value;
    assert r[a + |value|..] == xml[b..];
  }

  /** The current text of the first `name` element: what `ReplaceXmlField`
      would overwrite. */
  function ReadXmlField(xml: string, name: string): (r: Option<string>)
    ensures r.None? <==> FieldSpan(xml, name).None?
    ensures r.Some? ==> Contains(xml, StartTag(name) + r.value + EndTag(name))
  {
    match FieldSpan(xml, name)
    case None => None
    case Some((a, b)) =>
      ElementOccurs(xml, StartTag(name), a, b, EndTag(name));
      Some(xml[a..b])
  }

  /** A start tag ending at `a` and an end tag starting at `b` enclose the
      text between them. */
  lemma {:induction false} ElementOccurs(xml: string, st: string, a: nat, b: nat, et: string)
    requires |st| <= a <= b <= |xml|
    requires OccursAt(xml, st, a - |st|) && OccursAt(xml, et, b)
    ensures OccursAt(xml, st + xml[a..b] + et, a - |st|)
  {
    OccursSlice(xml, a, b);
    OccursJoin(xml, st, xml[a..b], a - |st|);
    OccursJoin(xml, st + xml[a..b], et, a - |st|);
  }

  /** The span found from the two searches. */
  lemma {:induction false} FieldSpanAt(xml: string, name: string, a: nat, b: nat)
    requires |StartTag(name)| <= a <= |xml|
    requires Find(xml, StartTag(name)) == Some(a - |StartTag(name)|)
    requires FindFrom(xml, EndTag(name), a) == Some(b)
    ensures FieldSpan(xml, name) == Some((a, b))
  {
  }

  /** Text that keeps the first `a` characters of `xml`, up to and with the
      first start tag, still has that start tag first. */
  lemma {:induction false} StartTagKept(xml: string, name: string, a: nat, tail: string)
    requires |StartTag(name)| <= a <= |xml|
    requires OccursAt(xml, StartTag(name), a - |StartTag(name)|)
    requires forall j :: 0 <= j < a - |StartTag(name)| ==> !OccursAt(xml, StartTag(name), j)
    ensures Find(xml[..a] + tail, StartTag(name)) == Some(a - |StartTag(name)|)
  {
    var st := StartTag(name);
    var pre := xml[..a];
    OccursPrefix(xml, a, st, a - |st|);
    OccursLeft(pre, tail, st, a - |st|);
    forall j | 0 <= j < a - |st| ensures !OccursAt(pre + tail, st, j) {
      OccursPrefix(xml, a, st, j);
      OccursLeft(pre, tail, st, j);
    }
  }

  /** In a value free of the end tag, followed by the end tag, the first
      end tag is the one after the value. */
  lemma {:induction false} EndTagClear(value: string, rest: string, name: string)
    requires PlainName(name)
    requires !Contains(value, EndTag(name))
    requires OccursAt(rest, EndTag(name), 0)
    ensures Find(value + rest, EndTag(name)) == Some(|value|)
  {
    var et := EndTag(name);
    EndTagLtFirst(name);
    CharOfOccurrence(rest, et, 0, 0);
    forall j | 0 <= j < |value| ensures !OccursAt(value + rest, et, j) {
      if OccursAt(value + rest, et, j) {
        NoCrossing(value, rest, et, j);
      }
    }
    OccursShift(value, rest, et, |value|);
    FindFromIs(value + rest, et, 0, |value|);
  }

  /** The same, however much text precedes the value. */
  lemma {:induction false} EndTagAfterValue(pre: string, value: string, rest: string, name: string)
    requires PlainName(name)
    requires !Contains(value, EndTag(name))
    requires OccursAt(rest, EndTag(name), 0)
    ensures FindFrom(pre + (value + rest), EndTag(name), |pre|) == Some(|pre| + |value|)
  {
    EndTagClear(value, rest, name);
    FindAfterPrefix(pre, value + rest, EndTag(name));
  }

  /** After a replacement the field spans exactly the new value, provided
      the value does not itself contain the end tag. */
  lemma {:induction false} ReplaceSpan(xml: string, name: string, value: string)
    requires PlainName(name)
    requires FieldSpan(xml, name).Some?
    requires !Contains(value, EndTag(name))
    ensures var a := FieldSpan(xml, name).value.0;
      FieldSpan(ReplaceXmlField(xml, name, value), name) == Some((a, a + |value|))
  {
    var (a, b) := FieldSpan(xml, name).value;
    var pre, rest := xml[..a], xml[b..];
    assert ReplaceXmlField(xml, name, value) == pre + (value + rest);
    StartTagKept(xml, name, a, value + rest);
    OccursSuffix(xml, EndTag(name), b, b);
    SpliceSpan(pre, value, rest, name);
  }

  /** A text whose first start tag ends `pre`, followed by a value free of
      the end tag and then by the end tag, has its field span the value. */
  lemma {:induction false} SpliceSpan(pre: string, value: string, rest: string, name: string)
    requires PlainName(name)
    requires |StartTag(name)| <= |pre|
    requires Find(pre + (value + rest), StartTag(name)) == Some(|pre| - |StartTag(name)|)
    requires !Contains(value, EndTag(name))
    requires OccursAt(rest, EndTag(name), 0)
    ensures FieldSpan(pre + (value + rest), name) == Some((|pre|, |pre| + |value|))
  {
    EndTagAfterValue(pre, value, rest, name);
    FieldSpanAt(pre + (value + rest), name, |pre|, |pre| + |value|);
  }

  /** The new value sits right after the start tag. */
  lemma {:induction false} ReplaceValueAt(xml: string, name: string, value: string)
    requires FieldSpan(xml, name).Some?
    ensures var a := FieldSpan(xml, name).value.0;
      var r := ReplaceXmlField(xml, name, value);
      a + |value| <= |r| && r[a..a + |value|] == value
  {
    var a := FieldSpan(xml, name).value.0;
    assert ReplaceXmlField(xml, name, value)[a..a + |value|] == value;
  }

  /** After a replacement the field reads back as the new value. */
  lemma {:induction false} ReplaceThenRead(xml: string, name: string, value: string)
    requires PlainName(name)
    requires FieldSpan(xml, name).Some?
    requires !Contains(value, EndTag(name))
    ensures ReadXmlField(ReplaceXmlField(xml, name, value), name) == Some(value)
  {
    ReplaceSpan(xml, name, value);
    ReplaceValueAt(xml, name, value);
    var a := FieldSpan(xml, name).value.0;
    ReadAt(ReplaceXmlField(xml, name, value), name, a, a + |value|);
  }

  /** The text a known span encloses is what `ReadXmlField` returns. */
  lemma {:induction false} ReadAt(xml: string, name: string, a: nat, b: nat)
    requires FieldSpan(xml, name) == Some((a, b))
    ensures ReadXmlField(xml, name) == Some(xml[a..b])
  {
  }

  /** Writing into a field the text it already holds changes nothing. */
  lemma {:induction false} ReplaceSame(xml: string, name: string, value: string, a: nat)
    requires FieldSpan(xml, name) == Some((a, a + |value|))
    requires xml[a..a + |value|] == value
    ensures ReplaceXmlField(xml, name, value) == xml
  {
    SpliceSame(xml, a, value);
  }

  /** Writing the same value twice is writing it once. */
  lemma {:induction false} ReplaceIdempotent(xml: string, name: string, value: string)
    requires PlainName(name)
    requires !Contains(value, EndTag(name))
    ensures ReplaceXmlField(ReplaceXmlField(xml, name, value), name, value) == ReplaceXmlField(xml, name, value)
  {
    if FieldSpan(xml, name).Some? {
      ReplaceSpan(xml, name, value);
      ReplaceValueAt(xml, name, value);
      var a := FieldSpan(xml, name).value.0;
      ReplaceSame(ReplaceXmlField(xml, name, value), name, value, a);
    }
  }

  /** What the XML test of the repository checks after each replacement:
      the rewritten element occurs in full. */
  lemma {:induction false} ReplaceContainsElement(xml: string, name: string, value: string)
    requires PlainName(name)
    requires FieldSpan(xml, name).Some?
    requires !Contains(value, EndTag(name))
    ensures Contains(ReplaceXmlField(xml, name, value), StartTag(name) + value + EndTag(name))
  {
    ReplaceThenRead(xml, name, value);
  }

  // ---------------------------------------------------------------------
  // The patch image's XML

  const ImageEnd: string := "</IMAGE>"
  const ManifestStart: string := "<PatchManifest>"
  const ManifestEnd: string := "</PatchManifest>"

  /** The display fields written into a patch image; the flags are left empty. */
  function FieldsBlock(name: string, description: string): string {
    StartTag("NAME") + name + EndTag("NAME")
    + StartTag("DESCRIPTION") + description + EndTag("DESCRIPTION")
    + StartTag("DISPLAYNAME") + name + EndTag("DISPLAYNAME")
    + StartTag("DISPLAYDESCRIPTION") + description + EndTag("DISPLAYDESCRIPTION")
    + StartTag("FLAGS") + EndTag("FLAGS")
  }

  datatype XmlError = ImageTagNotFound | ManifestNotFound | SliceOutOfOrder | ManifestParseFailed

  /** The fields and the manifest are spliced in before the last `</IMAGE>`;
      an image description without one is an error. */
  function InsertImageFields(info: string, name: string, description: string, manifestXml: string): (r: Result<string, XmlError>)
    ensures r.Failure? <==> !Contains(info, ImageEnd)
    ensures r.Failure? ==> r.error == ImageTagNotFound
    ensures r.Success? ==> |r.value| == |info| + |FieldsBlock(name, description)| + |manifestXml|
    ensures r.Success? ==>
      var pos := RFind(info, ImageEnd).value;
      var inserted := FieldsBlock(name, description) + manifestXml;
      && r.value[..pos] == info[..pos]
      && r.value[pos..pos + |inserted|] == inserted
      && r.value[pos + |inserted|..] == info[pos..]
  {
    match RFind(info, ImageEnd)
    case None => Failure(ImageTagNotFound)
    case Some(pos) =>
      var inserted := FieldsBlock(name, description) + manifestXml;
      var r := info[..pos] + inserted + info[pos..];
      assert r[..pos] == info[..pos];
      assert r[pos..pos + |inserted|] == inserted;
      assert r[pos + |inserted|..] == info[pos..];
      Success(r)
  }

  /** The `<PatchManifest>` element of a patch image's description: from the
      first start tag to the end of the first end tag. The source slices
      without comparing the two positions and panics when the end tag comes
      first by more than its own length; the model reports that case. */
  function ManifestSpan(info: string): (r: Result<string, XmlError>)
    ensures r.Failure? && r.error == ManifestNotFound <==> !Contains(info, ManifestStart) || !Contains(info, ManifestEnd)
    ensures r.Success? ==> Contains(info, r.value)
    ensures r.Failure? && r.error == SliceOutOfOrder ==>
      Find(info, ManifestStart).value > Find(info, ManifestEnd).value + |ManifestEnd|
    ensures r.Failure? ==> r.error == ManifestNotFound || r.error == SliceOutOfOrder
    ensures r.Success? ==>
      var s, e := Find(info, ManifestStart).value, Find(info, ManifestEnd).value;
      s <= e + |ManifestEnd| && r.value == info[s..e + |ManifestEnd|]
    ensures r.Success? && Find(info, ManifestStart).value < Find(info, ManifestEnd).value ==>
      && OccursAt(r.value, ManifestStart, 0)
      && OccursAt(r.value, ManifestEnd, |r.value| - |ManifestEnd|)
      && forall j :: 0 <= j < |r.value| - |ManifestEnd| ==> !OccursAt(r.value, ManifestEnd, j)
  {
    match (Find(info, ManifestStart), Find(info, ManifestEnd))
    case (Some(s), Some(e)) =>
      if s <= e + |ManifestEnd| then
        var x := info[s..e + |ManifestEnd|];
        assert OccursAt(info, x, s);
        if s < e then SpanTags(info, s, e); Success(x) else Success(x)
      else Failure(SliceOutOfOrder)
    case _ => Failure(ManifestNotFound)
  }

  /** A slice from an occurrence of the start tag to the end of the first
      occurrence of the end tag, which comes later, begins with the start
      tag, ends with the end tag and holds no earlier end tag. */
  lemma {:induction false} SpanTags(info: string, s: nat, e: nat)
    requires s < e && OccursAt(info, ManifestStart, s) && OccursAt(info, ManifestEnd, e)
    requires forall j :: 0 <= j < e ==> !OccursAt(info, ManifestEnd, j)
    ensures var x := info[s..e + |ManifestEnd|];
      && OccursAt(x, ManifestStart, 0)
      && OccursAt(x, ManifestEnd, |x| - |ManifestEnd|)
      && forall j :: 0 <= j < |x| - |ManifestEnd| ==> !OccursAt(x, ManifestEnd, j)
  {
    var x := info[s..e + |ManifestEnd|];
    forall k | 0 <= k < |ManifestEnd| ensures ManifestEnd[k] == x[e - s + k] {
      CharOfOccurrence(info, ManifestEnd, e, k);
    }
    forall j | 0 <= j < |x| - |ManifestEnd| ensures !OccursAt(x, ManifestEnd, j) {
      assert OccursAt(x, ManifestEnd, j) ==> OccursAt(info, ManifestEnd, s + j);
    }
  }

  /** `parse_patch_info`, with the XML deserializer as a parameter. */
  function ParsePatchInfo<M>(info: string, parse: string -> Option<M>): (r: Result<M, XmlError>)
    ensures r.Success? ==> ManifestSpan(info).Success? && parse(ManifestSpan(info).value) == Some(r.value)
    ensures ManifestSpan(info).Failure? ==> r == Failure(ManifestSpan(info).error)
    ensures ManifestSpan(info).Success? && parse(ManifestSpan(info).value).None? ==> r == Failure(ManifestParseFailed)
  {
    match ManifestSpan(info)
    case Failure(e) => Failure(e)
    case Success(x) =>
      match parse(x)
      case None => Failure(ManifestParseFailed)
      case Some(m) => Success(m)
  }

  // ---------------------------------------------------------------------
  // Writing a manifest and reading it back

  /** Every '<' is followed by two more characters, the first not 'P' and,
      after '/', the second not 'P': neither manifest tag can occur. */
  ghost predicate NoManifestTagStart(s: string) {
    forall j :: 0 <= j < |s| && s[j] == '<' ==>
      j + 2 < |s| && s[j + 1] != 'P' && (s[j + 1] == '/' ==> s[j + 2] != 'P')
  }

  lemma {:induction false} NoManifestTagConcat(u: string, v: string)
    requires NoManifestTagStart(u) && NoManifestTagStart(v)
    ensures NoManifestTagStart(u + v)
  {
    var s := u + v;
    forall j | 0 <= j < |s| && s[j] == '<'
      ensures j + 2 < |s| && s[j + 1] != 'P' && (s[j + 1] == '/' ==> s[j + 2] != 'P')
    {
      if j < |u| {
        assert s[j] == u[j] && s[j + 1] == u[j + 1] && s[j + 2] == u[j + 2];
      } else {
        assert s[j] == v[j - |u|] && s[j + 1] == v[j - |u| + 1] && s[j + 2] == v[j - |u| + 2];
      }
    }
  }

  lemma {:induction false} NoManifestTagText(s: string)
    requires PlainName(s)
    ensures NoManifestTagStart(s)
  {
  }

  /** The tags of an element whose name neither starts with 'P' nor with '/'. */
  lemma {:induction false} NoManifestTagInTags(name: string)
    requires PlainName(name) && |name| > 0 && name[0] != 'P' && name[0] != '/'
    ensures NoManifestTagStart(StartTag(name)) && NoManifestTagStart(EndTag(name))
  {
    var st, et := StartTag(name), EndTag(name);
    forall j | 0 <= j < |st| && st[j] == '<'
      ensures j + 2 < |st| && st[j + 1] != 'P' && (st[j + 1] == '/' ==> st[j + 2] != 'P')
    {
      assert j == 0;
    }
    forall j | 0 <= j < |et| && et[j] == '<'
      ensures j + 2 < |et| && et[j + 1] != 'P' && (et[j + 1] == '/' ==> et[j + 2] != 'P')
    {
      assert j == 0;
    }
  }

  lemma {:induction false} NoManifestTagOccurs(s: string)
    requires NoManifestTagStart(s)
    ensures !Contains(s, ManifestStart) && !Contains(s, ManifestEnd)
  {
    forall j | OccursAt(s, ManifestStart, j) ensures false {
      CharOfOccurrence(s, ManifestStart, j, 0);
      CharOfOccurrence(s, ManifestStart, j, 1);
    }
    forall j | OccursAt(s, ManifestEnd, j) ensures false {
      CharOfOccurrence(s, ManifestEnd, j, 0);
      CharOfOccurrence(s, ManifestEnd, j, 1);
      CharOfOccurrence(s, ManifestEnd, j, 2);
    }
  }

  /** The inserted display fields never contain a manifest tag when the name
      and the description contain no '<' (which well-formed element text
      cannot). */
  lemma {:induction false} FieldsBlockClean(name: string, description: string)
    requires PlainName(name) && PlainName(description)
    ensures !Contains(FieldsBlock(name, description), ManifestStart)
    ensures !Contains(FieldsBlock(name, description), ManifestEnd)
  {
    NoManifestTagInTags("NAME");
    NoManifestTagInTags("DESCRIPTION");
    NoManifestTagInTags("DISPLAYNAME");
    NoManifestTagInTags("DISPLAYDESCRIPTION");
    NoManifestTagInTags("FLAGS");
    NoManifestTagText(name);
    NoManifestTagText(description);
    var acc := StartTag("NAME");
    NoManifestTagConcat(acc, name); acc := acc + name;
    NoManifestTagConcat(acc, EndTag("NAME")); acc := acc + EndTag("NAME");
    NoManifestTagConcat(acc, StartTag("DESCRIPTION")); acc := acc + StartTag("DESCRIPTION");
    NoManifestTagConcat(acc, description); acc := acc + description;
    NoManifestTagConcat(acc, EndTag("DESCRIPTION")); acc := acc + EndTag("DESCRIPTION");
    NoManifestTagConcat(acc, StartTag("DISPLAYNAME")); acc := acc + StartTag("DISPLAYNAME");
    NoManifestTagConcat(acc, name); acc := acc + name;
    NoManifestTagConcat(acc, EndTag("DISPLAYNAME")); acc := acc + EndTag("DISPLAYNAME");
    NoManifestTagConcat(acc, StartTag("DISPLAYDESCRIPTION")); acc := acc + StartTag("DISPLAYDESCRIPTION");
    NoManifestTagConcat(acc, description); acc := acc + description;
    NoManifestTagConcat(acc, EndTag("DISPLAYDESCRIPTION")); acc := acc + EndTag("DISPLAYDESCRIPTION");
    NoManifestTagConcat(acc, StartTag("FLAGS")); acc := acc + StartTag("FLAGS");
    NoManifestTagConcat(acc, EndTag("FLAGS")); acc := acc + EndTag("FLAGS");
    assert acc == FieldsBlock(name, description);
    NoManifestTagOccurs(acc);
  }

  /** A text with no occurrence of a tag, followed by text that starts with
      '<', has no occurrence of the tag before the join. */
  lemma {:induction false} NoOccurrenceBefore(u: string, v: string, pat: string, j: int)
    requires |pat| > 0 && pat[0] == '<' && forall k :: 0 < k < |pat| ==> pat[k] != '<'
    requires |v| > 0 && v[0] == '<'
    requires !Contains(u, pat)
    requires 0 <= j < |u|
    ensures !OccursAt(u + v, pat, j)
  {
    if OccursAt(u + v, pat, j) {
      NoCrossing(u, v, pat, j);
    }
  }

  /** The description up to the insertion point, followed by the display
      fields, mentions neither manifest tag. */
  lemma {:induction false} HeadClean(info: string, pos: nat, name: string, description: string)
    requires pos <= |info|
    requires !Contains(info, ManifestStart) && !Contains(info, ManifestEnd)
    requires PlainName(name) && PlainName(description)
    ensures !Contains(info[..pos] + FieldsBlock(name, description), ManifestStart)
    ensures !Contains(info[..pos] + FieldsBlock(name, description), ManifestEnd)
  {
    var prefix, suffix := info[..pos], info[pos..];
    var block := FieldsBlock(name, description);
    var h := prefix + block;
    assert prefix + suffix == info;
    forall j | OccursAt(prefix, ManifestStart, j) ensures false {
      OccursLeft(prefix, suffix, ManifestStart, j);
    }
    forall j | OccursAt(prefix, ManifestEnd, j) ensures false {
      OccursLeft(prefix, suffix, ManifestEnd, j);
    }
    FieldsBlockClean(name, description);
    assert block[0] == '<';
    assert forall k :: 0 < k < |ManifestStart| ==> ManifestStart[k] != '<';
    assert forall k :: 0 < k < |ManifestEnd| ==> ManifestEnd[k] != '<';
    forall j | OccursAt(h, ManifestStart, j) ensures false {
      if j < |prefix| {
        NoOccurrenceBefore(prefix, block, ManifestStart, j);
      } else {
        OccursShift(prefix, block, ManifestStart, j);
      }
    }
    forall j | OccursAt(h, ManifestEnd, j) ensures false {
      if j < |prefix| {
        NoOccurrenceBefore(prefix, block, ManifestEnd, j);
      } else {
        OccursShift(prefix, block, ManifestEnd, j);
      }
    }
  }

  /** Behind a text that mentions neither manifest tag, the first start tag
      and the first end tag are those of the manifest element placed there. */
  lemma {:induction false} SpliceFind(h: string, mx: string, suffix: string)
    requires !Contains(h, ManifestStart) && !Contains(h, ManifestEnd)
    requires OccursAt(mx, ManifestStart, 0)
    requires Find(mx, ManifestEnd) == Some(|mx| - |ManifestEnd|)
    ensures Find(h + mx + suffix, ManifestStart) == Some(|h|)
    ensures Find(h + mx + suffix, ManifestEnd) == Some(|h| + |mx| - |ManifestEnd|)
  {
    var whole := h + (mx + suffix);
    assert whole == h + mx + suffix;
    assert forall k :: 0 < k < |ManifestStart| ==> ManifestStart[k] != '<';
    assert forall k :: 0 < k < |ManifestEnd| ==> ManifestEnd[k] != '<';
    CharOfOccurrence(mx, ManifestStart, 0, 0);
    assert (mx + suffix)[0] == '<';
    forall j | 0 <= j < |h| ensures !OccursAt(whole, ManifestStart, j) {
      NoOccurrenceBefore(h, mx + suffix, ManifestStart, j);
    }
    OccursShift(h, mx + suffix, ManifestStart, |h|);
    OccursLeft(mx, suffix, ManifestStart, 0);
    var e := |mx| - |ManifestEnd|;
    forall j | 0 <= j < |h| + e ensures !OccursAt(whole, ManifestEnd, j) {
      if j < |h| {
        NoOccurrenceBefore(h, mx + suffix, ManifestEnd, j);
      } else {
        OccursShift(h, mx + suffix, ManifestEnd, j);
        OccursLeft(mx, suffix, ManifestEnd, j - |h|);
      }
    }
    OccursShift(h, mx + suffix, ManifestEnd, |h| + e);
    OccursLeft(mx, suffix, ManifestEnd, e);
  }

  /** A manifest written into a patch image by `InsertImageFields` is the one
      `ManifestSpan` extracts again, provided the image description mentions
      no manifest tag, the name and description hold no '<', and the
      manifest is one element whose first end tag is its last. */
  lemma {:induction false} InsertThenSpan(info: string, name: string, description: string, manifestXml: string)
    requires Contains(info, ImageEnd)
    requires !Contains(info, ManifestStart) && !Contains(info, ManifestEnd)
    requires PlainName(name) && PlainName(description)
    requires OccursAt(manifestXml, ManifestStart, 0)
    requires Find(manifestXml, ManifestEnd) == Some(|manifestXml| - |ManifestEnd|)
    ensures ManifestSpan(InsertImageFields(info, name, description, manifestXml).value) == Success(manifestXml)
  {
    var pos := RFind(info, ImageEnd).value;
    var h := info[..pos] + FieldsBlock(name, description);
    var whole := InsertImageFields(info, name, description, manifestXml).value;
    assert whole == h + manifestXml + info[pos..];
    HeadClean(info, pos, name, description);
    SpliceManifest(h, manifestXml, info[pos..]);
  }

  /** A manifest element placed after text free of manifest tags is the
      span found again, whatever follows it. */
  lemma SpliceManifest(h: string, mx: string, suffix: string)
    requires !Contains(h, ManifestStart) && !Contains(h, ManifestEnd)
    requires OccursAt(mx, ManifestStart, 0)
    requires Find(mx, ManifestEnd) == Some(|mx| - |ManifestEnd|)
    ensures ManifestSpan(h + mx + suffix) == Success(mx)
  {
    SpliceFind(h, mx, suffix);
    assert (h + mx + suffix)[|h|..|h| + |mx|] == mx;
  }

  /** Reading a patch image's description back yields what the deserializer
      makes of the manifest that was written into it. */
  lemma {:induction false} InsertThenParse<M>(info: string, name: string, description: string, manifestXml: string, parse: string -> Option<M>)
    requires Contains(info, ImageEnd)
    requires !Contains(info, ManifestStart) && !Contains(info, ManifestEnd)
    requires PlainName(name) && PlainName(description)
    requires OccursAt(manifestXml, ManifestStart, 0)
    requires Find(manifestXml, ManifestEnd) == Some(|manifestXml| - |ManifestEnd|)
    ensures ParsePatchInfo(InsertImageFields(info, name, description, manifestXml).value, parse)
         == (match parse(manifestXml) case Some(m) => Success(m) case None => Failure(ManifestParseFailed))
  {
    InsertThenSpan(info, name, description, manifestXml);
  }
}
